=== FILE: README.md ===
# libshamir in Dafny

A model of libshamir, a C library for Shamir threshold secret sharing over
GF(256), and of the exhaustive recovery check in its test program.

Each byte j of a secret of `size` bytes gets its own random polynomial. The
polynomial has `threshold` coefficients and its constant term is the secret
byte. A key is a nonzero point x followed by the value of every polynomial at
x. Key i is taken at the point i + 1. Any `threshold` keys recover each
constant term by Lagrange interpolation at zero. All field multiplications
run in the discrete-logarithm domain, as `exp[log a + log b]`.

The test program shares a secret into n keys. It then walks every t-subset of
the keys in lexicographic order, using `next_combination`, and checks that
each subset gives back the secret.

Modules, one file each:

- `GF256Tables` (`gf256_tables.dfy`): the exp and log tables of
  GF(2)[x]/(x^8+x^4+x^3+x^2+1) with generator 2. It states the table laws on
  powers of the generator.
- `GF256` (`gf256.dfy`): the field element `Elem` and the operations:
  - `Add` is XOR.
  - `Exp` is read modulo 255.
  - `Log`.
  - `Mul` is `exp[log a + log b]`, with zero handled apart.
  - `Inv` is `exp[255 - log a]`.
  
  The field laws are proved here: commutativity, associativity,
  distributivity, inverses and no zero divisors.
- `Polynomial` (`polynomial.dfy`): coefficient lists, Horner evaluation, the
  power-sum reading of Horner's rule, and the vanishing of polynomials at
  their roots.
- `Lagrange` (`lagrange.dfy`): the Lagrange sum at a point, and the
  interpolation theorem for at most t coefficients through t distinct points.
  It also has the log-domain sums `log_n` and `log_d`, the exponent `log_l`,
  and the proof that the log-domain term the C code adds is the Lagrange
  term.
- `Shamir` (`shamir.dfy`):
  - `params_invalid`, the two size functions, `shamir_init_poly`,
    `_shamir_get_key`, `shamir_get_keys` and `shamir_recover_secret`;
  - the key-buffer layout;
  - the as-written versions of the three defects under Findings.
- `Combinations` (`combinations.dfy`):
  - `next_combination`, with `unsigned` wrap-around modelled;
  - an independent definition of the lexicographic successor, and the
    proof that the C loop computes it;
  - a rank that bounds the enumeration;
  - `copy_idxs`.
- `RecoveryCheck` (`check_recovery.dfy`): `check_recovery`, with the theorem
  that every t-subset of the keys recovers the secret.

The random bytes of `shamir_init_poly` and the test's random secret are
parameters.

## Model

| member | source | states |
|---|---|---|
| Shamir.PolySize | src/shamir.c:22-32 | The polynomial buffer size fails exactly when threshold < 2, threshold > 254 or size < 1. |
| Shamir.KeySize | src/shamir.c:34-38 | The key size fails exactly on invalid parameters. |
| Shamir.SizesAsWrittenAlwaysFail | src/shamir.c:28-38 | As written, both size functions fail for every input, so `shamir_init_poly` fails for every input too. The intended versions succeed on valid parameters. |
| Shamir.InitPoly | src/shamir.c:75-111 | Fails exactly on invalid parameters. On success there are `size` polynomials of `threshold` coefficients, and the random fill has `poly_size` bytes. Coefficient 0 of polynomial j is secret byte j. Every other coefficient (i, j) is random byte j·threshold + i. |
| Shamir.Horner | src/shamir.c:131-141 | The inner loop, including its `exp[log_x + log y]` step and the zero test, computes the Horner value c0 + x·(c1 + x·(… c_{t-1})). |
| Polynomial.EvalIsPowerSum | src/shamir.c:113-119 | The Horner value is p(x) = Σ c_i·x^i, the value of the polynomial the key is meant to hold. |
| Shamir.ConstantKey | src/shamir.c:131-141 | When every non-constant coefficient is zero, the key value is the constant term. |
| Shamir.GetKey | src/shamir.c:124-143 | Fails exactly on invalid parameters or x = 0. Otherwise the key holds x followed by p_j(x) for every j, and its length is the key size. |
| Shamir.PointValue | src/shamir.c:149-153 | The point of key i is the byte i + 1. The count never wraps below MAX_KEYS. |
| Shamir.KeysAt | src/shamir.c:149-155 | The loop makes key i the key for point i + 1, and the per-key failure branch is never taken. |
| Shamir.GetKeys | src/shamir.c:145-157 | Fails exactly on invalid parameters, n < 2 or n > 254. Otherwise there are n keys, key i is the key for i + 1, and the points are nonzero and pairwise distinct. |
| Shamir.PointsGood | src/shamir.c:150-151 | The points i + 1 are nonzero and pairwise distinct. |
| Lagrange.LogLagrange | src/shamir.c:174-179 | `log_l` lies in [1, 509] and is congruent to log_n − log_d modulo 255. |
| Lagrange.ExpLogNum | src/shamir.c:169-173 | exp of `log_n`, started at 0, is the numerator Π_{k≠i} x_k. |
| Lagrange.ExpLogDen | src/shamir.c:169-173 | exp of `log_d` is the denominator Π_{k≠i} (x_i ⊕ x_k) over distinct points. |
| Shamir.LogSums | src/shamir.c:167-173 | The inner loop computes the two log sums, skipping k = i. |
| Lagrange.RecoverTermIsTerm | src/shamir.c:179-182 | Over nonzero distinct points, the added term `exp[log y + log_l]` (skipped when y = 0) is the Lagrange term y_i·Π x_k / Π (x_i ⊕ x_k). |
| Lagrange.RecoverSumIsLagrange | src/shamir.c:163-183 | The XOR of the log-domain terms over the first threshold keys is the Lagrange sum at zero. |
| Shamir.RecoverByte | src/shamir.c:164-183 | One secret byte is the XOR of the log-domain terms. Over good points it is the Lagrange sum at zero. |
| Shamir.RecoverSecret | src/shamir.c:159-185 | Fails exactly on invalid parameters. Byte j is the log-domain sum over the first threshold keys, which is the Lagrange sum at zero when their points are nonzero and distinct. |
| Lagrange.Interpolate | src/shamir.c:163-183 | At t distinct points, the Lagrange sum at zero of the values of a polynomial with at most t coefficients is its constant term. |
| Lagrange.RecoverValueAtZero | src/shamir.c:163-183 | The C code's log-domain sum over the values of such a polynomial at good points is its constant term. |
| Shamir.RecoverShares | src/shamir.c:105-110 | Take at least threshold keys of the polynomials `shamir_init_poly` builds, whose first threshold keys (the ones recovery reads) have nonzero, distinct points. Recovery gives back the secret that was set as the constant terms. |
| Shamir.LogNumAsWrittenTerm | src/shamir.c:167-171 | With `log_n` starting from a leftover value g, a nonzero term is correct exactly when the wrapped 32-bit sum is congruent modulo 255 to the sum started from 0. |
| Shamir.UninitialisedLogNumCorrupts | src/shamir.c:167 | While g plus the sum of logarithms stays below 2^32, a nonzero term is correct exactly when g is a multiple of 255; any other leftover value makes every nonzero term wrong. |
| Shamir.KeyStoreRoundTrip | src/shamir.c:58-73 | With a key stride of size + 1, every key written into the key buffer reads back unchanged. |
| Shamir.StoredByte | src/shamir.c:58-73 | With the stride equal to the key length, byte d of slot i holds byte d of key i after all the writes. |
| Shamir.KeyStrideAsWrittenOverlaps | src/shamir.c:61 | With the stride `threshold` ≤ size, key 1 overwrites the end of key 0. Value threshold−1 of key 0 reads back as key 1's point. |
| Shamir.KeyStrideAsWrittenOverruns | src/shamir.c:61 | With the stride `threshold` > size + 1, the slot of the last key ends past the buffer of n key sizes. With the stride size + 1 it ends exactly at the end of the buffer. |
| GF256.LogExp | src/shamir.c:136 | log undoes exp modulo 255. |
| GF256.ExpAdd | src/shamir.c:136 | `exp[a + b]` is the product of `exp[a]` and `exp[b]`, for indices of any size. |
| GF256.MulDistributes | src/shamir.c:136-137 | Log-domain multiplication distributes over XOR. |
| GF256.MulCommutes | src/shamir.c:182 | Log-domain multiplication commutes. |
| GF256.MulAssociates | src/shamir.c:182 | Log-domain multiplication is associative. |
| GF256.MulNonzero | src/shamir.c:135 | A product is zero exactly when a factor is zero, which is why the `if (y)` test is sound. |
| GF256.MulInverse | src/shamir.c:179 | `exp[255 - log a]` is the inverse of a nonzero a. |
| GF256.LogIsTable | src/shamir.c:128 | The logarithm is the log-table entry. |
| GF256.ExpIsTable | src/shamir.c:136 | exp below 255 is the exp-table entry. |
| Combinations.NextCombination | tests/test_shamir.c:32-52 | Returns Invalid exactly when t > n or t < 1, and leaves the array unchanged. When `idx[t-1] + 1 < n` (unsigned), only the last index steps. On a combination: it returns Last exactly on {n−t, …, n−1}, t = 1 included, with the array unchanged; Advanced gives the lexicographic successor. |
| Combinations.FillFrom | tests/test_shamir.c:44-46 | Entry i goes up by one, and each later entry is one more than the one before, modulo 2^32. |
| Combinations.GapIsPivot | tests/test_shamir.c:41-43 | The first gap the backward search finds is the last entry below its ceiling. |
| Combinations.NoGapIsFinal | tests/test_shamir.c:39-50 | A search that finds no gap means the combination is the last one. |
| Combinations.FinalIffNoPivot | tests/test_shamir.c:39-50 | A combination has no entry below its ceiling exactly when it is {n−t, …, n−1}. |
| Combinations.SuccessorIsCombination | tests/test_shamir.c:42-47 | The successor is strictly increasing with entries below n. |
| Combinations.SuccessorIsLater | tests/test_shamir.c:42-47 | The successor comes lexicographically after the combination. |
| Combinations.SuccessorIsImmediate | tests/test_shamir.c:42-47 | Every combination after c is the successor or comes after the successor. |
| Combinations.CombinationCeiling | tests/test_shamir.c:32-52 | Entry k of a t-combination of [0, n) is at most n − t + k. |
| Combinations.RankIncreases | tests/test_shamir.c:123-144 | The rank, read in base n, grows strictly along lexicographic order. |
| Combinations.RankBound | tests/test_shamir.c:123-144 | The rank of a combination is below n^t, so the enumeration ends. |
| Combinations.CopyIdxs | tests/test_shamir.c:15-22 | Slot i receives key k_idxs[i] for every i < t, and no other slot changes. |
| RecoveryCheck.SelectedPointsGood | tests/test_shamir.c:123-127 | The keys a combination selects have nonzero, pairwise distinct points. |
| RecoveryCheck.SubsetRecovers | tests/test_shamir.c:123-145 | Every t-subset of the keys from `shamir_get_keys` recovers the secret given to `shamir_init_poly`. |
| RecoveryCheck.RecoverSelected | tests/test_shamir.c:126-130 | The loop body copies the selected keys and recovers from them. |
| RecoveryCheck.CheckRecovery | tests/test_shamir.c:58-159 | Fails with an error exactly on rejected parameters, n < t or n > 254. Otherwise it visits the t-subsets from {0, …, t−1} until the last and reports no failure. |

## Left out

- Reading `RANDOM_DEVICE` (src/shamir.c:82-103) is I/O. The bytes it would deliver are the `random` parameter of `InitPoly`. Its failure paths are not modelled: `open` failing (src/shamir.c:84-85), `read` returning −1 (src/shamir.c:93-97), and `read` returning 0 at end of file, which loops forever at src/shamir.c:91-100. So `InitPoly` fails only on invalid parameters.
- The test's `_shamir_*_random` helpers, `malloc`/`free`, the `goto` cleanup, `debug` output and `main`'s sweep are not modelled: they are test scaffolding.
- `errno` and `fail` become the `Result` datatype. The null-pointer checks are not modelled, because sequences cannot be null.
- g256_tables.h is not part of this model. `GF256Tables` is one instance of the tables: field polynomial 0x11D, generator 2. The proofs outside that module use the table laws plus the linearity of XTime, which is multiplication by the generator 0x02. So the field laws, distributivity included, are proved for this instance only. `log[0]` has no meaning and is read as 0.
- `Exp` is read modulo 255. The C code indexes `exp` up to 508 at src/shamir.c:136 and up to 763 at src/shamir.c:182. Whether the unseen table is that long cannot be checked, so the model assumes it repeats with period 255.
- `volatile` on `log_l` (src/shamir.c:179) is a timing concern with no effect on values.
- `y &= GF256_MASK` (src/shamir.c:138) keeps a value that is already a byte, so it has no effect.
- `Lagrange.LogNum`: the unsigned sums `log_n` and `log_d` are not taken modulo 2^32. They add at most 253 logarithms below 255, so they never wrap.
- Shamir.RecoverByte, Shamir.RecoverSecret: `shamir_recover_secret` rejects neither a key whose point is 0 nor two keys with the same point. On such keys it reads `log[0]` without a guard at src/shamir.c:171-172, so its result depends on the table's entry for 0. For those keys the model assumes `log[0]` = 0. Over nonzero, distinct points, which is where the contracts give the result a meaning, `log[0]` is never read.
- Shamir.RecoverSecret: `shamir_recover_secret` has no `return` statement on success (src/shamir.c:184), so its result is undefined. The model returns success.
- `size * threshold` in `size_t` (src/shamir.c:31) is not checked for overflow.
- The loops over secret bytes use an `unsigned j` (src/shamir.c:108, 131, 163), while `size` is a `size_t` (include/shamir.h:9). The offset `j * params.threshold` in `_c` (src/shamir.c:56) is also `unsigned` arithmetic. In the C code both wrap modulo 2^32. Once size·threshold reaches 2^32, coefficient offsets alias, so `shamir_init_poly` writes constant terms over other polynomials' coefficients and Horner reads the same wrapped offsets. Once size reaches 2^32, the three `j` loops never end. The model indexes with unbounded naturals, so secrets with size·threshold ≥ 2^32 are not modelled: `Shamir.InitPoly`, `Shamir.GetKey` and `Shamir.RecoverSecret` describe the unwrapped result.
- RecoveryCheck.CheckRecovery: tests/test_shamir.c:65 initialises a field `.t` that `shamir_params_t` does not have, so the test does not compile as written. The model sets `threshold` to t, as evidently intended. The debug line at tests/test_shamir.c:137 is left out along with the rest of the debug output.
- Combinations.NextCombination: `int i = t - 2` would overflow only for t above 2^31. Arrays that large are not modelled.
- `shamir_recover_secret` also reads keys through the `_k` stride `threshold` (src/shamir.c:171-172, 180). The test fills its recovery buffer at the stride `key_size` (tests/test_shamir.c:19), so as written recovery reads at a different stride from the one the keys were written with. Only the write side in `shamir_get_keys` is modelled at byte level (`Shamir.StoreKeys`). Recovery is modelled on a sequence of keys, as if read at the stride `size + 1`.
- Combinations.CopyIdxs works on key slots rather than bytes. The byte layout with the `size + 1` stride of tests/test_shamir.c:19 is the one `Shamir.KeyStoreRoundTrip` proves.
- RecoveryCheck.CheckRecovery: the contract does not state that every combination is visited. The successor lemmas show that each step goes to the immediate successor, which implies it.

## Findings

| source | as written | input that shows it | evidently intended | confidence | as-written member | corrected member |
|---|---|---|---|---|---|---|
| src/shamir.c:29 | `if (params_invalid)` tests the function's address, which is never null, so `shamir_poly_size` always fails. The same happens at line 35, and `shamir_init_poly` then fails at line 80. | size 1, threshold 2 | `if (params_invalid(params))` | high, not executed | Shamir.SizesAsWrittenAlwaysFail | Shamir.InitPoly |
| src/shamir.c:61 | `_k` steps `threshold` bytes per key, but a key is `size + 1` bytes long. | size 2, threshold 2, two keys: value 1 of key 0 reads back as key 1's point | a stride of `size + 1`, the key size that `copy_idxs` uses at tests/test_shamir.c:19. | high, not executed | Shamir.KeyStrideAsWrittenOverlaps | Shamir.KeyStoreRoundTrip |
| src/shamir.c:167 | `unsigned log_n, log_d = 0;` initialises only `log_d`. | any leftover `log_n` value g with g mod 255 ≠ 0 such that g plus the sum of logarithms stays below 2^32, and any key with y ≠ 0 | `log_n = 0` as well | high, not executed | Shamir.UninitialisedLogNumCorrupts | Lagrange.RecoverTermIsTerm |

=== FILE: check_recovery.dfy ===
/** The recovery check of the test program (`check_recovery`,
    tests/test_shamir.c:54-159): share a secret into n keys, then recover
    it from every t-subset of the keys, in lexicographic order. */
module RecoveryCheck {
  import opened GF256Tables
  import opened GF256
  import opened Polynomial
  import opened Lagrange
  import opened Shamir
  import opened Combinations

  /** Keys i = 0 … n-1 as `shamir_get_keys` makes them. */
  predicate KeysFromPoly(coeffs: seq<seq<Elem>>, keys: seq<Key>) {
    |keys| <= MaxKeys && forall i :: 0 <= i < |keys| ==> keys[i] == KeyFor(coeffs, PointOf(i))
  }

  /** The keys a combination selects, in order. */
  predicate Selected(keys: seq<Key>, idx: seq<nat>, sub: seq<Key>) {
    |sub| == |idx| && forall i :: 0 <= i < |idx| ==> idx[i] < |keys| && sub[i] == keys[idx[i]]
  }

  /** Keys picked by a combination have nonzero, pairwise distinct points. */
  lemma SelectedPointsGood(coeffs: seq<seq<Elem>>, keys: seq<Key>, idx: seq<nat>, sub: seq<Key>)
    requires KeysFromPoly(coeffs, keys) && IsCombination(idx, |keys|) && Selected(keys, idx, sub)
    ensures GoodPoints(Points(sub, |sub|)) && KeysOf(coeffs, sub)
  {
    var xs := Points(sub, |sub|);
    forall i, j | 0 <= i < j < |xs|
      ensures xs[i] != xs[j]
    {
      PointValue(idx[i]);
      PointValue(idx[j]);
    }
    forall i | 0 <= i < |xs|
      ensures xs[i] != Zero
    {
      PointNonzero(idx[i]);
    }
  }

  /** Every t-subset of the keys recovers the secret. */
  lemma SubsetRecovers(params: Params, secret: seq<Elem>, random: seq<Elem>, coeffs: seq<seq<Elem>>,
                       keys: seq<Key>, idx: seq<nat>, sub: seq<Key>)
    requires |secret| == params.size && |random| == params.size * params.threshold
    requires InitPoly(params, secret, random) == Ok(coeffs)
    requires KeysFromPoly(coeffs, keys)
    requires IsCombination(idx, |keys|) && |idx| == params.threshold && Selected(keys, idx, sub)
    ensures forall i :: 0 <= i < |sub| ==> |sub[i].ys| == params.size
    ensures Recovered(params, sub) == secret
  {
    SelectedPointsGood(coeffs, keys, idx, sub);
    assert sub[..params.threshold] == sub;
    RecoverShares(params, secret, random, coeffs, sub);
  }

  /** One round of the loop body (tests/test_shamir.c:126-134): copy the
      selected keys into the slots and recover from them. */
  method RecoverSelected(params: Params, keys: seq<Key>, slots: seq<Key>, idx: seq<nat>)
    returns (sub: seq<Key>, r: Result<seq<Elem>>)
    requires |idx| == params.threshold <= |slots|
    requires forall i :: 0 <= i < |idx| ==> idx[i] < |keys| && |keys[idx[i]].ys| == params.size
    ensures |sub| == |slots| && Selected(keys, idx, sub[..params.threshold])
    ensures r.Fail? <==> ParamsInvalid(params)
    ensures r.Ok? ==> r.value == Recovered(params, sub)
  {
    sub := CopyIdxs(keys, slots, idx, params.threshold);
    r := RecoverSecret(params, sub);
  }

  /** `check_recovery(size, n, t)`, with the secret and the random
      polynomial bytes as parameters in place of the random device. It fails
      with an error exactly when the parameters or the key count are
      rejected; otherwise it visits the t-subsets in lexicographic order,
      from {0, …, t-1} until `next_combination` reports the last, and every
      one recovers the secret, so it reports no failure. */
  method CheckRecovery(size: nat, n: nat, t: nat, secret: seq<Elem>, random: seq<Elem>)
    returns (r: Result<bool>)
    requires |secret| == size && |random| == size * t && n < U32Limit
    ensures r.Fail? <==> ParamsInvalid(Params(size, t)) || n < t || n > MaxKeys
    ensures r.Ok? ==> r.value == false
  {
    var params := Params(size, t);
    if n < t {
      return Fail(InvalidArgument);
    }
    var polySize := PolySize(params);
    if polySize.Fail? {
      return Fail(InvalidArgument);
    }
    var keySize := KeySize(params);
    assert keySize.Ok?;
    var p := InitPoly(params, secret, random);
    var coeffs := p.value;
    var got := GetKeys(params, coeffs, n);
    if got.Fail? {
      return Fail(InvalidArgument);
    }
    var keys := got.value;
    assert KeysFromPoly(coeffs, keys);
    // The t slots after the n keys start with whatever the buffer holds;
    // every one is written before it is read.
    var slots := keys[..t];
    var idx := First(t);
    while true
      invariant |idx| == t && IsCombination(idx, n) && |slots| == t
      decreases NatPow(n, t) - Rank(idx, n)
    {
      var sub, rec := RecoverSelected(params, keys, slots, idx);
      assert sub[..t] == sub;
      SubsetRecovers(params, secret, random, coeffs, keys, idx, sub);
      var failure := rec.value != secret;
      assert !failure;
      var res, next := NextCombination(idx, n, t);
      if res == Last {
        return Ok(failure);
      }
      SuccessorIsCombination(idx, n);
      SuccessorIsLater(idx, n);
      LaterRanksHigher(idx, next, n);
      RankBound(next, n);
      idx, slots := next, sub;
    }
  }
}

=== FILE: combinations.dfy ===
/** The combination enumerator of the test program (tests/test_shamir.c).

    A combination of t out of n is a strictly increasing array of t indices
    below n. `next_combination` steps an array to its lexicographic
    successor in place; `copy_idxs` gathers the selected keys. Indices are
    `unsigned`, so the additions in `next_combination` are taken modulo
    2^32; for a combination they never wrap. */
module Combinations {

  const U32Limit := 0x1_0000_0000

  /** `v + 1` on `unsigned`. */
  function U32Succ(v: nat): nat {
    (v + 1) % U32Limit
  }

  predicate U32s(s: seq<nat>) {
    forall k :: 0 <= k < |s| ==> s[k] < U32Limit
  }

  /** The return value of `next_combination`: 0, 1 or -1 with `EINVAL`. */
  datatype Outcome = Advanced | Last | Invalid

  predicate Increasing(s: seq<nat>) {
    forall j, k :: 0 <= j < k < |s| ==> s[j] < s[k]
  }

  predicate Below(s: seq<nat>, n: nat) {
    forall k :: 0 <= k < |s| ==> s[k] < n
  }

  /** A t-subset of [0, n) as a strictly increasing array. */
  predicate IsCombination(c: seq<nat>, n: nat) {
    Increasing(c) && Below(c, n)
  }

  /** The first combination, {0, …, t-1}. */
  function First(t: nat): (c: seq<nat>)
    ensures |c| == t
  {
    seq(t, k requires 0 <= k < t => k)
  }

  /** The last combination, {n-t, …, n-1}. */
  function Final(n: nat, t: nat): (c: seq<nat>)
    requires t <= n
    ensures |c| == t
  {
    seq(t, k requires 0 <= k < t => n - t + k)
  }

  // ---------------------------------------------------------------------------
  // Lexicographic order.

  /** a and b agree before position p and a is smaller at p. */
  predicate LexLessAt(a: seq<nat>, b: seq<nat>, p: nat) {
    p < |a| == |b| && a[..p] == b[..p] && a[p] < b[p]
  }

  predicate LexLess(a: seq<nat>, b: seq<nat>) {
    exists p: nat :: p < |a| && LexLessAt(a, b, p)
  }

  // ---------------------------------------------------------------------------
  // The successor, defined independently of the C loop: the pivot is the
  // last index that has not reached its largest possible value; it goes up
  // by one and every index after it follows on consecutively.

  /** The last position j <= k whose entry is below its ceiling n - |c| + j,
      or -1 when every entry up to k sits at its ceiling. */
  function PivotFrom(c: seq<nat>, n: nat, k: int): (p: int)
    requires -1 <= k < |c|
    ensures -1 <= p <= k
    ensures p >= 0 ==> c[p] + (|c| - p) < n
    ensures forall j :: p < j <= k ==> c[j] + (|c| - j) >= n
    decreases k + 1
  {
    if k < 0 then -1
    else if c[k] + (|c| - k) < n then k
    else PivotFrom(c, n, k - 1)
  }

  function Pivot(c: seq<nat>, n: nat): int {
    PivotFrom(c, n, |c| - 1)
  }

  /** The lexicographic successor of a combination other than the last. */
  function Successor(c: seq<nat>, n: nat): (s: seq<nat>)
    requires Pivot(c, n) >= 0
    ensures |s| == |c|
  {
    var p := Pivot(c, n);
    seq(|c|, k requires 0 <= k < |c| => if k < p then c[k] else c[p] + 1 + (k - p))
  }

  // ---------------------------------------------------------------------------
  // Facts about combinations.

  /** Entries of a strictly increasing array grow by at least one a step. */
  lemma {:induction false} IncreasingGap(c: seq<nat>, j: nat, k: nat)
    requires Increasing(c) && j <= k < |c|
    ensures c[j] + (k - j) <= c[k]
    decreases k - j
  {
    if j < k {
      IncreasingGap(c, j, k - 1);
    }
  }

  /** Entry k of a combination is at most its ceiling n - |c| + k. */
  lemma CombinationCeiling(c: seq<nat>, n: nat, k: nat)
    requires IsCombination(c, n) && k < |c|
    ensures c[k] + (|c| - k) <= n
  {
    IncreasingGap(c, k, |c| - 1);
  }

  /** Every entry after the pivot sits at its ceiling. */
  lemma AfterPivot(c: seq<nat>, n: nat, k: nat)
    requires IsCombination(c, n) && Pivot(c, n) < k < |c|
    ensures c[k] == n - |c| + k
  {
    CombinationCeiling(c, n, k);
  }

  /** A combination has no pivot exactly when it is the last one. */
  lemma FinalIffNoPivot(c: seq<nat>, n: nat)
    requires IsCombination(c, n) && |c| <= n
    ensures Pivot(c, n) < 0 <==> c == Final(n, |c|)
  {
    if Pivot(c, n) < 0 {
      forall k | 0 <= k < |c|
        ensures c[k] == Final(n, |c|)[k]
      {
        AfterPivot(c, n, k);
      }
    }
  }

  /** The successor is a combination. */
  lemma SuccessorIsCombination(c: seq<nat>, n: nat)
    requires IsCombination(c, n) && Pivot(c, n) >= 0
    ensures IsCombination(Successor(c, n), n)
  {
    var s := Successor(c, n);
    var p := Pivot(c, n);
    forall j, k | 0 <= j < k < |s|
      ensures s[j] < s[k]
    {
      if k < p {
      } else if j < p {
        IncreasingGap(c, j, p);
      }
    }
  }

  /** The successor comes after the combination. */
  lemma SuccessorIsLater(c: seq<nat>, n: nat)
    requires IsCombination(c, n) && Pivot(c, n) >= 0
    ensures LexLess(c, Successor(c, n))
  {
    var p: nat := Pivot(c, n);
    assert LexLessAt(c, Successor(c, n), p);
  }

  /** Two different arrays of one length have a first difference. */
  lemma {:induction false} FirstDifference(a: seq<nat>, b: seq<nat>, k: nat, i: nat)
    requires |a| == |b| && k <= i < |a| && a[..k] == b[..k] && a[i] != b[i]
    ensures exists q: nat :: k <= q < |a| && a[..q] == b[..q] && a[q] != b[q]
    decreases i - k
  {
    if a[k] != b[k] {
      assert k <= k < |a| && a[..k] == b[..k] && a[k] != b[k];
    } else {
      assert a[..k + 1] == a[..k] + [a[k]];
      assert b[..k + 1] == b[..k] + [b[k]];
      FirstDifference(a, b, k + 1, i);
    }
  }

  /** When d agrees with the successor s up to and including the pivot p,
      d is s or comes after it: after p, s climbs by exactly one a step
      and d by at least one. */
  lemma AgreeThroughPivot(d: seq<nat>, s: seq<nat>, p: nat)
    requires |d| == |s| && p < |s| && Increasing(d)
    requires d[..p + 1] == s[..p + 1]
    requires forall k :: p <= k < |s| ==> s[k] == s[p] + (k - p)
    ensures d == s || LexLess(s, d)
  {
    if d != s {
      var i :| 0 <= i < |d| && d[i] != s[i];
      assert i >= p + 1;
      FirstDifference(d, s, p + 1, i);
      var q: nat :| p + 1 <= q < |d| && d[..q] == s[..q] && d[q] != s[q];
      assert d[p] == s[p] by {
        assert d[..p + 1][p] == s[..p + 1][p];
      }
      IncreasingGap(d, p, q);
      assert LexLessAt(s, d, q);
    }
  }

  /** The successor is immediate: every combination after c is the
      successor or comes after it. */
  lemma SuccessorIsImmediate(c: seq<nat>, d: seq<nat>, n: nat)
    requires IsCombination(c, n) && IsCombination(d, n) && Pivot(c, n) >= 0
    requires LexLess(c, d)
    ensures d == Successor(c, n) || LexLess(Successor(c, n), d)
  {
    var s := Successor(c, n);
    var p: nat := Pivot(c, n);
    var q: nat :| q < |c| && LexLessAt(c, d, q);
    assert s[..p] == c[..p];
    if q > p {
      AfterPivot(c, n, q);
      CombinationCeiling(d, n, q);
      assert false;
    } else if q < p {
      assert s[..q] == c[..q] by {
        assert s[..q] == s[..p][..q];
        assert c[..q] == c[..p][..q];
      }
      assert LexLessAt(s, d, q);
    } else if d[p] > s[p] {
      assert LexLessAt(s, d, p);
    } else {
      assert d[..p + 1] == s[..p + 1] by {
        assert d[..p + 1] == d[..p] + [d[p]];
        assert s[..p + 1] == s[..p] + [s[p]];
      }
      AgreeThroughPivot(d, s, p);
    }
  }

  // ---------------------------------------------------------------------------
  // A rank that lexicographic order increases: the array read as a number
  // in base n. It bounds the number of steps of an enumeration.

  function NatPow(b: nat, e: nat): nat {
    if e == 0 then 1 else b * NatPow(b, e - 1)
  }

  function Rank(c: seq<nat>, n: nat): nat {
    if |c| == 0 then 0 else Rank(c[..|c| - 1], n) * n + c[|c| - 1]
  }

  /** One more digit in base n: a smaller leading part stays smaller
      whatever the last digits are. */
  lemma DigitStep(ra: nat, rb: nat, x: nat, y: nat, n: nat)
    requires ra < rb && x < n
    ensures ra * n + x < rb * n + y
  {
    assert (ra + 1) * n <= rb * n;
  }

  /** The rank is below n^|c|. */
  lemma {:induction false} RankBound(c: seq<nat>, n: nat)
    requires Below(c, n)
    ensures Rank(c, n) < NatPow(n, |c|)
    decreases |c|
  {
    if |c| > 0 {
      var init := c[..|c| - 1];
      RankBound(init, n);
      var r, q := Rank(init, n), NatPow(n, |init|);
      DigitStep(r, q, c[|c| - 1], 0, n);
      assert n * q == q * n;
    }
  }

  /** Lexicographic order increases the rank. */
  lemma {:induction false} RankIncreases(a: seq<nat>, b: seq<nat>, n: nat, p: nat)
    requires LexLessAt(a, b, p) && Below(a, n) && Below(b, n)
    ensures Rank(a, n) < Rank(b, n)
    decreases |a|
  {
    var m := |a| - 1;
    var a', b' := a[..m], b[..m];
    var ra, rb := Rank(a', n), Rank(b', n);
    assert Rank(a, n) == ra * n + a[m];
    assert Rank(b, n) == rb * n + b[m];
    if m == p {
      assert a' == b';
    } else {
      assert a'[..p] == a[..p] && b'[..p] == b[..p];
      RankIncreases(a', b', n, p);
      DigitStep(ra, rb, a[m], b[m], n);
    }
  }

  lemma LaterRanksHigher(a: seq<nat>, b: seq<nat>, n: nat)
    requires LexLess(a, b) && Below(a, n) && Below(b, n)
    ensures Rank(a, n) < Rank(b, n)
  {
    var p: nat :| p < |a| && LexLessAt(a, b, p);
    RankIncreases(a, b, n, p);
  }

  // ---------------------------------------------------------------------------
  // next_combination (tests/test_shamir.c:32-52).

  /** The tail of the successful search: entry i goes up by one and every
      entry after it follows on (`k_idxs[i++]++; for (; i < t; i++) …`). */
  method FillFrom(idx: seq<nat>, i: nat) returns (r: seq<nat>)
    requires i < |idx|
    ensures |r| == |idx|
    ensures forall k :: 0 <= k < i ==> r[k] == idx[k]
    ensures forall k :: i <= k < |idx| ==> r[k] == (idx[i] + 1 + (k - i)) % U32Limit
  {
    r := idx[i := U32Succ(idx[i])];
    var m := i + 1;
    while m < |idx|
      invariant i < m <= |idx| && |r| == |idx|
      invariant forall k :: 0 <= k < i ==> r[k] == idx[k]
      invariant forall k :: i <= k < m ==> r[k] == (idx[i] + 1 + (k - i)) % U32Limit
    {
      ModSucc(idx[i] + 1 + (m - 1 - i));
      r := r[m := U32Succ(r[m - 1])];
      m := m + 1;
    }
  }

  lemma ModSucc(a: nat)
    ensures (a % U32Limit + 1) % U32Limit == (a + 1) % U32Limit
  {
  }

  /** The search ran past every position without a gap: the array is the
      last combination. */
  lemma NoGapIsFinal(c: seq<nat>, n: nat)
    requires IsCombination(c, n) && 1 <= |c| <= n && U32s(c) && n < U32Limit
    requires U32Succ(c[|c| - 1]) >= n
    requires forall k :: 0 <= k < |c| - 1 ==> U32Succ(c[k]) >= c[k + 1]
    ensures c == Final(n, |c|)
  {
    FinalIffNoPivot(c, n);
    var t := |c|;
    if Pivot(c, n) >= 0 {
      var p := Pivot(c, n);
      if p < t - 1 {
        AfterPivot(c, n, p + 1);
      }
    }
  }

  /** A gap at i after which the search found none: i is the pivot. */
  lemma GapIsPivot(c: seq<nat>, n: nat, i: nat)
    requires IsCombination(c, n) && i + 1 < |c| <= n && U32s(c) && n < U32Limit
    requires U32Succ(c[|c| - 1]) >= n
    requires forall k :: i < k < |c| - 1 ==> U32Succ(c[k]) >= c[k + 1]
    requires U32Succ(c[i]) < c[i + 1]
    ensures Pivot(c, n) == i
  {
    var t := |c|;
    var p := Pivot(c, n);
    if p > i {
      if p < t - 1 {
        AfterPivot(c, n, p + 1);
      }
    } else if p < i {
      AfterPivot(c, n, i + 1);
    }
  }

  /** `next_combination(k_idxs, n, t)`. For any array it rejects t outside
      [1, n] without touching the array, and steps only the last index when
      that index can go up. For a combination it returns Last exactly on
      the last combination and otherwise steps to the successor. */
  method NextCombination(idx: seq<nat>, n: nat, t: nat) returns (res: Outcome, r: seq<nat>)
    requires |idx| == t && U32s(idx) && n < U32Limit
    ensures |r| == t
    ensures res == Invalid <==> t > n || t < 1
    ensures res != Advanced ==> r == idx
    ensures 1 <= t <= n && U32Succ(idx[t - 1]) < n ==>
      res == Advanced && r == idx[t - 1 := U32Succ(idx[t - 1])]
    ensures 1 <= t <= n && IsCombination(idx, n) ==> (res == Last <==> idx == Final(n, t))
    ensures 1 <= t <= n && IsCombination(idx, n) && res == Advanced ==>
      Pivot(idx, n) >= 0 && r == Successor(idx, n)
  {
    if t > n || t < 1 {
      return Invalid, idx;
    }
    if U32Succ(idx[t - 1]) < n {
      r := idx[t - 1 := U32Succ(idx[t - 1])];
      if IsCombination(idx, n) {
        assert Pivot(idx, n) == t - 1;
        FinalIffNoPivot(idx, n);
      }
      return Advanced, r;
    } else if t == 1 {
      if IsCombination(idx, n) {
        NoGapIsFinal(idx, n);
      }
      return Last, idx;
    }
    var i: int := t - 2;
    while i >= 0
      invariant -1 <= i <= t - 2
      invariant forall k :: i < k < t - 1 ==> U32Succ(idx[k]) >= idx[k + 1]
    {
      if U32Succ(idx[i]) < idx[i + 1] {
        r := FillFrom(idx, i);
        if IsCombination(idx, n) {
          GapIsPivot(idx, n, i);
          FinalIffNoPivot(idx, n);
          SuccessorMatchesFill(idx, n, r, i);
        }
        return Advanced, r;
      }
      i := i - 1;
    }
    if IsCombination(idx, n) {
      NoGapIsFinal(idx, n);
    }
    return Last, idx;
  }

  /** The fill from the pivot is the successor: for a combination no
      addition wraps. */
  lemma SuccessorMatchesFill(c: seq<nat>, n: nat, r: seq<nat>, i: nat)
    requires IsCombination(c, n) && n < U32Limit && Pivot(c, n) == i && |r| == |c|
    requires forall k :: 0 <= k < i ==> r[k] == c[k]
    requires forall k :: i <= k < |c| ==> r[k] == (c[i] + 1 + (k - i)) % U32Limit
    ensures r == Successor(c, n)
  {
    forall k | i <= k < |c|
      ensures r[k] == c[i] + 1 + (k - i)
    {
      assert c[i] + 1 + (k - i) < U32Limit;
    }
  }

  // ---------------------------------------------------------------------------
  // copy_idxs (tests/test_shamir.c:15-22).

  /** `copy_idxs`: slot i of the destination receives entry idxs[i] of the
      source for every i < t; the other slots keep what they held. */
  method CopyIdxs<T>(src: seq<T>, dst: seq<T>, idxs: seq<nat>, t: nat) returns (r: seq<T>)
    requires t <= |dst| && t <= |idxs|
    requires forall i :: 0 <= i < t ==> idxs[i] < |src|
    ensures |r| == |dst|
    ensures forall i :: 0 <= i < t ==> r[i] == src[idxs[i]]
    ensures forall i :: t <= i < |dst| ==> r[i] == dst[i]
  {
    r := dst;
    var i := 0;
    while i < t
      invariant 0 <= i <= t && |r| == |dst|
      invariant forall k :: 0 <= k < i ==> r[k] == src[idxs[k]]
      invariant forall k :: i <= k < |dst| ==> r[k] == dst[k]
    {
      r := r[i := src[idxs[i]]];
      i := i + 1;
    }
  }
}

=== FILE: gf256.dfy ===
/** Arithmetic in the finite field GF(256).

    A field element is a byte (`gf256_t`, include/shamir.h:7). Addition is XOR.
    Multiplication goes through the discrete-logarithm domain as the C code
    does it, `exp[log a + log b]` with the exp index read modulo 255, and with
    zero handled apart because it has no logarithm. This module proves that the log-domain operations form a
    field: the laws the Lagrange reconstruction needs (commutativity,
    associativity, distributivity over XOR, inverses, no zero divisors) are
    lemmas here, derived from the table laws of GF256Tables and the linearity
    of XTime. */
module GF256 {
  import opened GF256Tables

  /** A field element. It is a byte, wrapped so that elements are combined
      only through the field operations of this module. */
  datatype Elem = Elem(byte: bv8)

  const Zero := Elem(0)
  const One := Elem(1)

  /** Addition is XOR (`y ^= …` in the C code). */
  function Add(a: Elem, b: Elem): Elem {
    Elem(a.byte ^ b.byte)
  }

  /** Multiplication by the generator. */
  function Double(a: Elem): Elem {
    Elem(XTime(a.byte))
  }

  /** a multiplied k times by the generator. */
  function Shift(k: nat, a: Elem): Elem {
    if k == 0 then a else Double(Shift(k - 1, a))
  }

  /** `exp[e]`, the generator raised to the power e. The C code indexes the
      table with sums of logarithms as large as 763; every such index is read
      modulo 255, the order of the multiplicative group. ExpIsTable shows the
      first period is the table. */
  function Exp(e: nat): Elem {
    Shift(e % 255, One)
  }

  /** `log[a]`, the discrete logarithm: the exponent below 255 whose power
      is a. It exists and is unique for every nonzero element (LogExists,
      ExpInjective); LogIsTable shows it is the table entry. Zero has no
      logarithm; the model reads 0 for it. */
  function Log(a: Elem): (r: nat)
    ensures r < 255
    ensures a != Zero ==> Exp(r) == a
  {
    if a == Zero then 0
    else
      LogExists(a);
      assert forall j: nat, k: nat | j < 255 && k < 255 && Exp(j) == a && Exp(k) == a :: j == k by {
        forall j: nat, k: nat | j < 255 && k < 255 && Exp(j) == a && Exp(k) == a {
          ExpInjective(j, k);
        }
      }
      var k: nat :| k < 255 && Exp(k) == a;
      k
  }

  /** Multiplication in the log domain, `exp[log a + log b]`; zero has no
      logarithm and is handled apart, as the C code does with `if (y)`. */
  function Mul(a: Elem, b: Elem): Elem {
    if a == Zero || b == Zero then Zero else Exp(Log(a) + Log(b))
  }

  /** Multiplicative inverse, `exp[255 - log a]`; 0 has none and maps to 0. */
  function Inv(a: Elem): Elem {
    if a == Zero then Zero else Exp(255 - Log(a))
  }

  // ---------------------------------------------------------------------------
  // The table laws, restated on Exp and Log.

  lemma {:induction false} ShiftIsXTimeN(k: nat, a: Elem)
    ensures Shift(k, a).byte == XTimeN(k, a.byte)
    decreases k
  {
    if k > 0 {
      ShiftIsXTimeN(k - 1, a);
    }
  }

  /** exp[k] for k below 255 is the table entry. */
  lemma ExpIsTable(k: bv8)
    requires k < 255
    ensures Exp(ByteValue(k)).byte == ExpTable(k)
  {
    ExpTableIsPower(k);
    ShiftIsXTimeN(ByteValue(k), One);
  }

  /** The generator has order dividing 255. */
  lemma PowerPeriod()
    ensures Shift(255, One) == One
  {
    ExpTableIsPower(0xFF);
    ShiftIsXTimeN(255, One);
  }

  lemma ExpNonzero(e: nat)
    ensures Exp(e) != Zero
  {
    PowerNonzero(e % 255);
    ShiftIsXTimeN(e % 255, One);
  }

  /** Exp is one-to-one on a period. */
  lemma ExpInjective(j: nat, k: nat)
    requires j < 255 && k < 255 && Exp(j) == Exp(k)
    ensures j == k
  {
    ShiftIsXTimeN(j, One);
    ShiftIsXTimeN(k, One);
    PowerInjective(j, k);
  }

  /** Every nonzero element is a power of the generator. */
  lemma LogExists(a: Elem)
    requires a != Zero
    ensures exists k: nat :: k < 255 && Exp(k) == a
  {
    var k := ByteValue(LogTable(a.byte));
    LogTableIsPower(a.byte);
    ShiftIsXTimeN(k, One);
    assert Exp(k) == a;
  }

  /** The logarithm is the entry of the log table. */
  lemma LogIsTable(a: Elem)
    requires a != Zero
    ensures Log(a) == ByteValue(LogTable(a.byte))
  {
    var k := ByteValue(LogTable(a.byte));
    LogTableIsPower(a.byte);
    ShiftIsXTimeN(k, One);
    ExpInjective(Log(a), k);
  }

  /** Log undoes Exp up to the period 255. */
  lemma LogExp(e: nat)
    ensures Log(Exp(e)) == e % 255
  {
    ExpNonzero(e);
    assert Exp(e % 255) == Exp(e);
    ExpInjective(Log(Exp(e)), e % 255);
  }

  /** Exp has period 255. */
  lemma ExpPeriod(e: nat)
    ensures Exp(e + 255) == Exp(e)
  {
    assert (e + 255) % 255 == e % 255;
  }

  /** One step up the exponent is one multiplication by the generator. */
  lemma ExpStep(e: nat)
    ensures Exp(e + 1) == Double(Exp(e))
  {
    if e % 255 == 254 {
      assert (e + 1) % 255 == 0;
      PowerPeriod();
    } else {
      assert (e + 1) % 255 == e % 255 + 1;
    }
  }

  lemma {:induction false} ExpShift(e: nat, m: nat)
    ensures Exp(e + m) == Shift(m, Exp(e))
    decreases m
  {
    if m > 0 {
      ExpShift(e, m - 1);
      ExpStep(e + m - 1);
    }
  }

  // ---------------------------------------------------------------------------
  // Multiplication by a fixed nonzero element is a power of Double.

  lemma DoubleLinear(a: Elem, b: Elem)
    ensures Double(Add(a, b)) == Add(Double(a), Double(b))
  {
  }

  lemma {:induction false} ShiftLinear(k: nat, a: Elem, b: Elem)
    ensures Shift(k, Add(a, b)) == Add(Shift(k, a), Shift(k, b))
    decreases k
  {
    if k > 0 {
      ShiftLinear(k - 1, a, b);
      DoubleLinear(Shift(k - 1, a), Shift(k - 1, b));
    }
  }

  lemma {:induction false} ShiftZero(k: nat)
    ensures Shift(k, Zero) == Zero
    decreases k
  {
    if k > 0 {
      ShiftZero(k - 1);
    }
  }

  /** Multiplication by a nonzero a is log a steps of Double. */
  lemma MulByShift(a: Elem, b: Elem)
    requires a != Zero
    ensures Mul(a, b) == Shift(Log(a), b)
  {
    if b == Zero {
      ShiftZero(Log(a));
    } else {
      ExpShift(Log(b), Log(a));
      assert Log(b) + Log(a) == Log(a) + Log(b);
    }
  }

  // ---------------------------------------------------------------------------
  // Field laws.

  /** Multiplication distributes over addition. */
  lemma MulDistributes(a: Elem, b: Elem, c: Elem)
    ensures Mul(a, Add(b, c)) == Add(Mul(a, b), Mul(a, c))
  {
    if a != Zero {
      MulByShift(a, Add(b, c));
      MulByShift(a, b);
      MulByShift(a, c);
      ShiftLinear(Log(a), b, c);
    }
  }

  lemma MulCommutes(a: Elem, b: Elem)
    ensures Mul(a, b) == Mul(b, a)
  {
    if a != Zero && b != Zero {
      assert Log(a) + Log(b) == Log(b) + Log(a);
    }
  }

  /** The product of nonzero elements is a power of the generator, hence
      nonzero: the field has no zero divisors. */
  lemma MulNonzero(a: Elem, b: Elem)
    ensures Mul(a, b) == Zero <==> a == Zero || b == Zero
  {
    if a != Zero && b != Zero {
      ExpNonzero(Log(a) + Log(b));
    }
  }

  lemma ModSum(d: nat, e: nat)
    ensures (d % 255 + e % 255) % 255 == (d + e) % 255
  {
  }

  /** Exp turns addition of exponents into multiplication. */
  lemma ExpAdd(d: nat, e: nat)
    ensures Exp(d + e) == Mul(Exp(d), Exp(e))
  {
    ExpNonzero(d);
    ExpNonzero(e);
    LogExp(d);
    LogExp(e);
    ModSum(d, e);
    assert Exp(d % 255 + e % 255) == Exp(d + e);
  }

  lemma ExpAssociates(d: nat, e: nat, f: nat)
    ensures Mul(Mul(Exp(d), Exp(e)), Exp(f)) == Mul(Exp(d), Mul(Exp(e), Exp(f)))
  {
    ExpAdd(d, e);
    ExpAdd(e, f);
    ExpAdd(d + e, f);
    ExpAdd(d, e + f);
    assert d + e + f == d + (e + f);
  }

  lemma MulAssociates(a: Elem, b: Elem, c: Elem)
    ensures Mul(Mul(a, b), c) == Mul(a, Mul(b, c))
  {
    if a != Zero && b != Zero && c != Zero {
      ExpAssociates(Log(a), Log(b), Log(c));
    } else {
      MulNonzero(a, b);
      MulNonzero(b, c);
    }
  }

  lemma MulOne(a: Elem)
    ensures Mul(a, One) == a
  {
    if a != Zero {
      LogExp(0);
      assert Log(One) == 0;
    }
  }

  /** Every nonzero element has an inverse. */
  lemma MulInverse(a: Elem)
    requires a != Zero
    ensures Inv(a) != Zero && Mul(a, Inv(a)) == One
  {
    var la := Log(a);
    ExpNonzero(255 - la);
    ExpAdd(la, 255 - la);
    assert Exp(255) == One;
  }
}

=== FILE: gf256_tables.dfy ===
/** The exponential and logarithm tables of GF(256).

    The C code reads both tables from g256_tables.h, which is not part of this
    model. They are instantiated here for the field GF(2)[x]/(x^8 + x^4 + x^3 +
    x^2 + 1) with generator 2 (the byte 0x02, the polynomial x). The rest of the
    model uses the four table laws proved at the end of this module plus the
    linearity of XTime (multiplication by the generator 0x02), not the
    particular byte values of the tables. */
module GF256Tables {

  /** The value of a byte as a number. */
  function ByteValue(b: bv8): nat {
    b as nat
  }

  lemma ByteSucc(b: bv8)
    requires b < 255
    ensures ByteValue(b + 1) == ByteValue(b) + 1
  {
  }

  lemma ByteValueInjective(b: bv8, c: bv8)
    requires ByteValue(b) == ByteValue(c)
    ensures b == c
  {
  }

  lemma {:induction false} ByteExists(k: nat)
    requires k < 256
    ensures exists b: bv8 :: ByteValue(b) == k
    decreases k
  {
    if k == 0 {
      assert ByteValue(0) == 0;
    } else {
      ByteExists(k - 1);
      var b: bv8 :| ByteValue(b) == k - 1;
      ByteSucc(b);
    }
  }

  /** The byte whose value is k. */
  function ByteOf(k: nat): (b: bv8)
    requires k < 256
    ensures ByteValue(b) == k
  {
    ByteExists(k);
    assert forall b: bv8, c: bv8 :: ByteValue(b) == k && ByteValue(c) == k ==> b == c by {
      forall b: bv8, c: bv8 | ByteValue(b) == k && ByteValue(c) == k {
        ByteValueInjective(b, c);
      }
    }
    var b: bv8 :| ByteValue(b) == k;
    b
  }

  /** Multiplication by the generator x: shift left, reducing by 0x11D when
      the top bit falls out. */
  function XTime(a: bv8): bv8 {
    (a << 1) ^ ((a >> 7) * 0x1D)
  }

  /** XTime applied k times. */
  function XTimeN(k: nat, a: bv8): bv8 {
    if k == 0 then a else XTime(XTimeN(k - 1, a))
  }

  /** exp[k] = 2^k; row r, column c holds the entry for k = 16 r + c.
      Entry 255 repeats entry 0, since 2^255 = 1. */
  function ExpTable(k: bv8): bv8 {
    if k < 0x80 then
      if k < 0x40 then
        if k < 0x20 then
          if k < 0x10 then
            (if k < 0x08 then (if k < 0x04 then (if k < 0x02 then (if k < 0x01 then 0x01 else 0x02) else (if k < 0x03 then 0x04 else 0x08)) else (if k < 0x06 then (if k < 0x05 then 0x10 else 0x20) else (if k < 0x07 then 0x40 else 0x80))) else (if k < 0x0C then (if k < 0x0A then (if k < 0x09 then 0x1D else 0x3A) else (if k < 0x0B then 0x74 else 0xE8)) else (if k < 0x0E then (if k < 0x0D then 0xCD else 0x87) else (if k < 0x0F then 0x13 else 0x26))))
          else
            (if k < 0x18 then (if k < 0x14 then (if k < 0x12 then (if k < 0x11 then 0x4C else 0x98) else (if k < 0x13 then 0x2D else 0x5A)) else (if k < 0x16 then (if k < 0x15 then 0xB4 else 0x75) else (if k < 0x17 then 0xEA else 0xC9))) else (if k < 0x1C then (if k < 0x1A then (if k < 0x19 then 0x8F else 0x03) else (if k < 0x1B then 0x06 else 0x0C)) else (if k < 0x1E then (if k < 0x1D then 0x18 else 0x30) else (if k < 0x1F then 0x60 else 0xC0))))
        else
          if k < 0x30 then
            (if k < 0x28 then (if k < 0x24 then (if k < 0x22 then (if k < 0x21 then 0x9D else 0x27) else (if k < 0x23 then 0x4E else 0x9C)) else (if k < 0x26 then (if k < 0x25 then 0x25 else 0x4A) else (if k < 0x27 then 0x94 else 0x35))) else (if k < 0x2C then (if k < 0x2A then (if k < 0x29 then 0x6A else 0xD4) else (if k < 0x2B then 0xB5 else 0x77)) else (if k < 0x2E then (if k < 0x2D then 0xEE else 0xC1) else (if k < 0x2F then 0x9F else 0x23))))
          else
            (if k < 0x38 then (if k < 0x34 then (if k < 0x32 then (if k < 0x31 then 0x46 else 0x8C) else (if k < 0x33 then 0x05 else 0x0A)) else (if k < 0x36 then (if k < 0x35 then 0x14 else 0x28) else (if k < 0x37 then 0x50 else 0xA0))) else (if k < 0x3C then (if k < 0x3A then (if k < 0x39 then 0x5D else 0xBA) else (if k < 0x3B then 0x69 else 0xD2)) else (if k < 0x3E then (if k < 0x3D then 0xB9 else 0x6F) else (if k < 0x3F then 0xDE else 0xA1))))
      else
        if k < 0x60 then
          if k < 0x50 then
            (if k < 0x48 then (if k < 0x44 then (if k < 0x42 then (if k < 0x41 then 0x5F else 0xBE) else (if k < 0x43 then 0x61 else 0xC2)) else (if k < 0x46 then (if k < 0x45 then 0x99 else 0x2F) else (if k < 0x47 then 0x5E else 0xBC))) else (if k < 0x4C then (if k < 0x4A then (if k < 0x49 then 0x65 else 0xCA) else (if k < 0x4B then 0x89 else 0x0F)) else (if k < 0x4E then (if k < 0x4D then 0x1E else 0x3C) else (if k < 0x4F then 0x78 else 0xF0))))
          else
            (if k < 0x58 then (if k < 0x54 then (if k < 0x52 then (if k < 0x51 then 0xFD else 0xE7) else (if k < 0x53 then 0xD3 else 0xBB)) else (if k < 0x56 then (if k < 0x55 then 0x6B else 0xD6) else (if k < 0x57 then 0xB1 else 0x7F))) else (if k < 0x5C then (if k < 0x5A then (if k < 0x59 then 0xFE else 0xE1) else (if k < 0x5B then 0xDF else 0xA3)) else (if k < 0x5E then (if k < 0x5D then 0x5B else 0xB6) else (if k < 0x5F then 0x71 else 0xE2))))
        else
          if k < 0x70 then
            (if k < 0x68 then (if k < 0x64 then (if k < 0x62 then (if k < 0x61 then 0xD9 else 0xAF) else (if k < 0x63 then 0x43 else 0x86)) else (if k < 0x66 then (if k < 0x65 then 0x11 else 0x22) else (if k < 0x67 then 0x44 else 0x88))) else (if k < 0x6C then (if k < 0x6A then (if k < 0x69 then 0x0D else 0x1A) else (if k < 0x6B then 0x34 else 0x68)) else (if k < 0x6E then (if k < 0x6D then 0xD0 else 0xBD) else (if k < 0x6F then 0x67 else 0xCE))))
          else
            (if k < 0x78 then (if k < 0x74 then (if k < 0x72 then (if k < 0x71 then 0x81 else 0x1F) else (if k < 0x73 then 0x3E else 0x7C)) else (if k < 0x76 then (if k < 0x75 then 0xF8 else 0xED) else (if k < 0x77 then 0xC7 else 0x93))) else (if k < 0x7C then (if k < 0x7A then (if k < 0x79 then 0x3B else 0x76) else (if k < 0x7B then 0xEC else 0xC5)) else (if k < 0x7E then (if k < 0x7D then 0x97 else 0x33) else (if k < 0x7F then 0x66 else 0xCC))))
    else
      if k < 0xC0 then
        if k < 0xA0 then
          if k < 0x90 then
            (if k < 0x88 then (if k < 0x84 then (if k < 0x82 then (if k < 0x81 then 0x85 else 0x17) else (if k < 0x83 then 0x2E else 0x5C)) else (if k < 0x86 then (if k < 0x85 then 0xB8 else 0x6D) else (if k < 0x87 then 0xDA else 0xA9))) else (if k < 0x8C then (if k < 0x8A then (if k < 0x89 then 0x4F else 0x9E) else (if k < 0x8B then 0x21 else 0x42)) else (if k < 0x8E then (if k < 0x8D then 0x84 else 0x15) else (if k < 0x8F then 0x2A else 0x54))))
          else
            (if k < 0x98 then (if k < 0x94 then (if k < 0x92 then (if k < 0x91 then 0xA8 else 0x4D) else (if k < 0x93 then 0x9A else 0x29)) else (if k < 0x96 then (if k < 0x95 then 0x52 else 0xA4) else (if k < 0x97 then 0x55 else 0xAA))) else (if k < 0x9C then (if k < 0x9A then (if k < 0x99 then 0x49 else 0x92) else (if k < 0x9B then 0x39 else 0x72)) else (if k < 0x9E then (if k < 0x9D then 0xE4 else 0xD5) else (if k < 0x9F then 0xB7 else 0x73))))
        else
          if k < 0xB0 then
            (if k < 0xA8 then (if k < 0xA4 then (if k < 0xA2 then (if k < 0xA1 then 0xE6 else 0xD1) else (if k < 0xA3 then 0xBF else 0x63)) else (if k < 0xA6 then (if k < 0xA5 then 0xC6 else 0x91) else (if k < 0xA7 then 0x3F else 0x7E))) else (if k < 0xAC then (if k < 0xAA then (if k < 0xA9 then 0xFC else 0xE5) else (if k < 0xAB then 0xD7 else 0xB3)) else (if k < 0xAE then (if k < 0xAD then 0x7B else 0xF6) else (if k < 0xAF then 0xF1 else 0xFF))))
          else
            (if k < 0xB8 then (if k < 0xB4 then (if k < 0xB2 then (if k < 0xB1 then 0xE3 else 0xDB) else (if k < 0xB3 then 0xAB else 0x4B)) else (if k < 0xB6 then (if k < 0xB5 then 0x96 else 0x31) else (if k < 0xB7 then 0x62 else 0xC4))) else (if k < 0xBC then (if k < 0xBA then (if k < 0xB9 then 0x95 else 0x37) else (if k < 0xBB then 0x6E else 0xDC)) else (if k < 0xBE then (if k < 0xBD then 0xA5 else 0x57) else (if k < 0xBF then 0xAE else 0x41))))
      else
        if k < 0xE0 then
          if k < 0xD0 then
            (if k < 0xC8 then (if k < 0xC4 then (if k < 0xC2 then (if k < 0xC1 then 0x82 else 0x19) else (if k < 0xC3 then 0x32 else 0x64)) else (if k < 0xC6 then (if k < 0xC5 then 0xC8 else 0x8D) else (if k < 0xC7 then 0x07 else 0x0E))) else (if k < 0xCC then (if k < 0xCA then (if k < 0xC9 then 0x1C else 0x38) else (if k < 0xCB then 0x70 else 0xE0)) else (if k < 0xCE then (if k < 0xCD then 0xDD else 0xA7) else (if k < 0xCF then 0x53 else 0xA6))))
          else
            (if k < 0xD8 then (if k < 0xD4 then (if k < 0xD2 then (if k < 0xD1 then 0x51 else 0xA2) else (if k < 0xD3 then 0x59 else 0xB2)) else (if k < 0xD6 then (if k < 0xD5 then 0x79 else 0xF2) else (if k < 0xD7 then 0xF9 else 0xEF))) else (if k < 0xDC then (if k < 0xDA then (if k < 0xD9 then 0xC3 else 0x9B) else (if k < 0xDB then 0x2B else 0x56)) else (if k < 0xDE then (if k < 0xDD then 0xAC else 0x45) else (if k < 0xDF then 0x8A else 0x09))))
        else
          if k < 0xF0 then
            (if k < 0xE8 then (if k < 0xE4 then (if k < 0xE2 then (if k < 0xE1 then 0x12 else 0x24) else (if k < 0xE3 then 0x48 else 0x90)) else (if k < 0xE6 then (if k < 0xE5 then 0x3D else 0x7A) else (if k < 0xE7 then 0xF4 else 0xF5))) else (if k < 0xEC then (if k < 0xEA then (if k < 0xE9 then 0xF7 else 0xF3) else (if k < 0xEB then 0xFB else 0xEB)) else (if k < 0xEE then (if k < 0xED then 0xCB else 0x8B) else (if k < 0xEF then 0x0B else 0x16))))
          else
            (if k < 0xF8 then (if k < 0xF4 then (if k < 0xF2 then (if k < 0xF1 then 0x2C else 0x58) else (if k < 0xF3 then 0xB0 else 0x7D)) else (if k < 0xF6 then (if k < 0xF5 then 0xFA else 0xE9) else (if k < 0xF7 then 0xCF else 0x83))) else (if k < 0xFC then (if k < 0xFA then (if k < 0xF9 then 0x1B else 0x36) else (if k < 0xFB then 0x6C else 0xD8)) else (if k < 0xFE then (if k < 0xFD then 0xAD else 0x47) else (if k < 0xFF then 0x8E else 0x01))))
  }

  /** `log[a]`, the discrete logarithm of a to base 2. Zero has no logarithm;
      log[0] is 0 here. The C code reads `log[0]` when a key's point is 0 or
      two keys share a point (src/shamir.c:171-172), and then its result
      depends on the table's entry for 0. */
  function LogTable(k: bv8): bv8 {
    if k < 0x80 then
      if k < 0x40 then
        if k < 0x20 then
          if k < 0x10 then
            (if k < 0x08 then (if k < 0x04 then (if k < 0x02 then (if k < 0x01 then 0x00 else 0x00) else (if k < 0x03 then 0x01 else 0x19)) else (if k < 0x06 then (if k < 0x05 then 0x02 else 0x32) else (if k < 0x07 then 0x1A else 0xC6))) else (if k < 0x0C then (if k < 0x0A then (if k < 0x09 then 0x03 else 0xDF) else (if k < 0x0B then 0x33 else 0xEE)) else (if k < 0x0E then (if k < 0x0D then 0x1B else 0x68) else (if k < 0x0F then 0xC7 else 0x4B))))
          else
            (if k < 0x18 then (if k < 0x14 then (if k < 0x12 then (if k < 0x11 then 0x04 else 0x64) else (if k < 0x13 then 0xE0 else 0x0E)) else (if k < 0x16 then (if k < 0x15 then 0x34 else 0x8D) else (if k < 0x17 then 0xEF else 0x81))) else (if k < 0x1C then (if k < 0x1A then (if k < 0x19 then 0x1C else 0xC1) else (if k < 0x1B then 0x69 else 0xF8)) else (if k < 0x1E then (if k < 0x1D then 0xC8 else 0x08) else (if k < 0x1F then 0x4C else 0x71))))
        else
          if k < 0x30 then
            (if k < 0x28 then (if k < 0x24 then (if k < 0x22 then (if k < 0x21 then 0x05 else 0x8A) else (if k < 0x23 then 0x65 else 0x2F)) else (if k < 0x26 then (if k < 0x25 then 0xE1 else 0x24) else (if k < 0x27 then 0x0F else 0x21))) else (if k < 0x2C then (if k < 0x2A then (if k < 0x29 then 0x35 else 0x93) else (if k < 0x2B then 0x8E else 0xDA)) else (if k < 0x2E then (if k < 0x2D then 0xF0 else 0x12) else (if k < 0x2F then 0x82 else 0x45))))
          else
            (if k < 0x38 then (if k < 0x34 then (if k < 0x32 then (if k < 0x31 then 0x1D else 0xB5) else (if k < 0x33 then 0xC2 else 0x7D)) else (if k < 0x36 then (if k < 0x35 then 0x6A else 0x27) else (if k < 0x37 then 0xF9 else 0xB9))) else (if k < 0x3C then (if k < 0x3A then (if k < 0x39 then 0xC9 else 0x9A) else (if k < 0x3B then 0x09 else 0x78)) else (if k < 0x3E then (if k < 0x3D then 0x4D else 0xE4) else (if k < 0x3F then 0x72 else 0xA6))))
      else
        if k < 0x60 then
          if k < 0x50 then
            (if k < 0x48 then (if k < 0x44 then (if k < 0x42 then (if k < 0x41 then 0x06 else 0xBF) else (if k < 0x43 then 0x8B else 0x62)) else (if k < 0x46 then (if k < 0x45 then 0x66 else 0xDD) else (if k < 0x47 then 0x30 else 0xFD))) else (if k < 0x4C then (if k < 0x4A then (if k < 0x49 then 0xE2 else 0x98) else (if k < 0x4B then 0x25 else 0xB3)) else (if k < 0x4E then (if k < 0x4D then 0x10 else 0x91) else (if k < 0x4F then 0x22 else 0x88))))
          else
            (if k < 0x58 then (if k < 0x54 then (if k < 0x52 then (if k < 0x51 then 0x36 else 0xD0) else (if k < 0x53 then 0x94 else 0xCE)) else (if k < 0x56 then (if k < 0x55 then 0x8F else 0x96) else (if k < 0x57 then 0xDB else 0xBD))) else (if k < 0x5C then (if k < 0x5A then (if k < 0x59 then 0xF1 else 0xD2) else (if k < 0x5B then 0x13 else 0x5C)) else (if k < 0x5E then (if k < 0x5D then 0x83 else 0x38) else (if k < 0x5F then 0x46 else 0x40))))
        else
          if k < 0x70 then
            (if k < 0x68 then (if k < 0x64 then (if k < 0x62 then (if k < 0x61 then 0x1E else 0x42) else (if k < 0x63 then 0xB6 else 0xA3)) else (if k < 0x66 then (if k < 0x65 then 0xC3 else 0x48) else (if k < 0x67 then 0x7E else 0x6E))) else (if k < 0x6C then (if k < 0x6A then (if k < 0x69 then 0x6B else 0x3A) else (if k < 0x6B then 0x28 else 0x54)) else (if k < 0x6E then (if k < 0x6D then 0xFA else 0x85) else (if k < 0x6F then 0xBA else 0x3D))))
          else
            (if k < 0x78 then (if k < 0x74 then (if k < 0x72 then (if k < 0x71 then 0xCA else 0x5E) else (if k < 0x73 then 0x9B else 0x9F)) else (if k < 0x76 then (if k < 0x75 then 0x0A else 0x15) else (if k < 0x77 then 0x79 else 0x2B))) else (if k < 0x7C then (if k < 0x7A then (if k < 0x79 then 0x4E else 0xD4) else (if k < 0x7B then 0xE5 else 0xAC)) else (if k < 0x7E then (if k < 0x7D then 0x73 else 0xF3) else (if k < 0x7F then 0xA7 else 0x57))))
    else
      if k < 0xC0 then
        if k < 0xA0 then
          if k < 0x90 then
            (if k < 0x88 then (if k < 0x84 then (if k < 0x82 then (if k < 0x81 then 0x07 else 0x70) else (if k < 0x83 then 0xC0 else 0xF7)) else (if k < 0x86 then (if k < 0x85 then 0x8C else 0x80) else (if k < 0x87 then 0x63 else 0x0D))) else (if k < 0x8C then (if k < 0x8A then (if k < 0x89 then 0x67 else 0x4A) else (if k < 0x8B then 0xDE else 0xED)) else (if k < 0x8E then (if k < 0x8D then 0x31 else 0xC5) else (if k < 0x8F then 0xFE else 0x18))))
          else
            (if k < 0x98 then (if k < 0x94 then (if k < 0x92 then (if k < 0x91 then 0xE3 else 0xA5) else (if k < 0x93 then 0x99 else 0x77)) else (if k < 0x96 then (if k < 0x95 then 0x26 else 0xB8) else (if k < 0x97 then 0xB4 else 0x7C))) else (if k < 0x9C then (if k < 0x9A then (if k < 0x99 then 0x11 else 0x44) else (if k < 0x9B then 0x92 else 0xD9)) else (if k < 0x9E then (if k < 0x9D then 0x23 else 0x20) else (if k < 0x9F then 0x89 else 0x2E))))
        else
          if k < 0xB0 then
            (if k < 0xA8 then (if k < 0xA4 then (if k < 0xA2 then (if k < 0xA1 then 0x37 else 0x3F) else (if k < 0xA3 then 0xD1 else 0x5B)) else (if k < 0xA6 then (if k < 0xA5 then 0x95 else 0xBC) else (if k < 0xA7 then 0xCF else 0xCD))) else (if k < 0xAC then (if k < 0xAA then (if k < 0xA9 then 0x90 else 0x87) else (if k < 0xAB then 0x97 else 0xB2)) else (if k < 0xAE then (if k < 0xAD then 0xDC else 0xFC) else (if k < 0xAF then 0xBE else 0x61))))
          else
            (if k < 0xB8 then (if k < 0xB4 then (if k < 0xB2 then (if k < 0xB1 then 0xF2 else 0x56) else (if k < 0xB3 then 0xD3 else 0xAB)) else (if k < 0xB6 then (if k < 0xB5 then 0x14 else 0x2A) else (if k < 0xB7 then 0x5D else 0x9E))) else (if k < 0xBC then (if k < 0xBA then (if k < 0xB9 then 0x84 else 0x3C) else (if k < 0xBB then 0x39 else 0x53)) else (if k < 0xBE then (if k < 0xBD then 0x47 else 0x6D) else (if k < 0xBF then 0x41 else 0xA2))))
      else
        if k < 0xE0 then
          if k < 0xD0 then
            (if k < 0xC8 then (if k < 0xC4 then (if k < 0xC2 then (if k < 0xC1 then 0x1F else 0x2D) else (if k < 0xC3 then 0x43 else 0xD8)) else (if k < 0xC6 then (if k < 0xC5 then 0xB7 else 0x7B) else (if k < 0xC7 then 0xA4 else 0x76))) else (if k < 0xCC then (if k < 0xCA then (if k < 0xC9 then 0xC4 else 0x17) else (if k < 0xCB then 0x49 else 0xEC)) else (if k < 0xCE then (if k < 0xCD then 0x7F else 0x0C) else (if k < 0xCF then 0x6F else 0xF6))))
          else
            (if k < 0xD8 then (if k < 0xD4 then (if k < 0xD2 then (if k < 0xD1 then 0x6C else 0xA1) else (if k < 0xD3 then 0x3B else 0x52)) else (if k < 0xD6 then (if k < 0xD5 then 0x29 else 0x9D) else (if k < 0xD7 then 0x55 else 0xAA))) else (if k < 0xDC then (if k < 0xDA then (if k < 0xD9 then 0xFB else 0x60) else (if k < 0xDB then 0x86 else 0xB1)) else (if k < 0xDE then (if k < 0xDD then 0xBB else 0xCC) else (if k < 0xDF then 0x3E else 0x5A))))
        else
          if k < 0xF0 then
            (if k < 0xE8 then (if k < 0xE4 then (if k < 0xE2 then (if k < 0xE1 then 0xCB else 0x59) else (if k < 0xE3 then 0x5F else 0xB0)) else (if k < 0xE6 then (if k < 0xE5 then 0x9C else 0xA9) else (if k < 0xE7 then 0xA0 else 0x51))) else (if k < 0xEC then (if k < 0xEA then (if k < 0xE9 then 0x0B else 0xF5) else (if k < 0xEB then 0x16 else 0xEB)) else (if k < 0xEE then (if k < 0xED then 0x7A else 0x75) else (if k < 0xEF then 0x2C else 0xD7))))
          else
            (if k < 0xF8 then (if k < 0xF4 then (if k < 0xF2 then (if k < 0xF1 then 0x4F else 0xAE) else (if k < 0xF3 then 0xD5 else 0xE9)) else (if k < 0xF6 then (if k < 0xF5 then 0xE6 else 0xE7) else (if k < 0xF7 then 0xAD else 0xE8))) else (if k < 0xFC then (if k < 0xFA then (if k < 0xF9 then 0x74 else 0xD6) else (if k < 0xFB then 0xF4 else 0xEA)) else (if k < 0xFE then (if k < 0xFD then 0xA8 else 0x50) else (if k < 0xFF then 0x58 else 0xAF))))
  }

  /** No power of the generator is zero. */
  lemma ExpTableNonzero(k: bv8)
    ensures ExpTable(k) != 0
  {
  }

  // The successor law is checked sixteen entries at a time: one obligation
  // over all 255 entries is too large for the solver, while each of these is
  // a small bit-level case split.

  lemma ExpTableStep0(k: bv8)
    requires 0x00 <= k < 0x10
    ensures ExpTable(k + 1) == XTime(ExpTable(k))
  {
  }

  lemma ExpTableStep1(k: bv8)
    requires 0x10 <= k < 0x20
    ensures ExpTable(k + 1) == XTime(ExpTable(k))
  {
  }

  lemma ExpTableStep2(k: bv8)
    requires 0x20 <= k < 0x30
    ensures ExpTable(k + 1) == XTime(ExpTable(k))
  {
  }

  lemma ExpTableStep3(k: bv8)
    requires 0x30 <= k < 0x40
    ensures ExpTable(k + 1) == XTime(ExpTable(k))
  {
  }

  lemma ExpTableStep4(k: bv8)
    requires 0x40 <= k < 0x50
    ensures ExpTable(k + 1) == XTime(ExpTable(k))
  {
  }

  lemma ExpTableStep5(k: bv8)
    requires 0x50 <= k < 0x60
    ensures ExpTable(k + 1) == XTime(ExpTable(k))
  {
  }

  lemma ExpTableStep6(k: bv8)
    requires 0x60 <= k < 0x70
    ensures ExpTable(k + 1) == XTime(ExpTable(k))
  {
  }

  lemma ExpTableStep7(k: bv8)
    requires 0x70 <= k < 0x80
    ensures ExpTable(k + 1) == XTime(ExpTable(k))
  {
  }

  lemma ExpTableStep8(k: bv8)
    requires 0x80 <= k < 0x90
    ensures ExpTable(k + 1) == XTime(ExpTable(k))
  {
  }

  lemma ExpTableStep9(k: bv8)
    requires 0x90 <= k < 0xA0
    ensures ExpTable(k + 1) == XTime(ExpTable(k))
  {
  }

  lemma ExpTableStep10(k: bv8)
    requires 0xA0 <= k < 0xB0
    ensures ExpTable(k + 1) == XTime(ExpTable(k))
  {
  }

  lemma ExpTableStep11(k: bv8)
    requires 0xB0 <= k < 0xC0
    ensures ExpTable(k + 1) == XTime(ExpTable(k))
  {
  }

  lemma ExpTableStep12(k: bv8)
    requires 0xC0 <= k < 0xD0
    ensures ExpTable(k + 1) == XTime(ExpTable(k))
  {
  }

  lemma ExpTableStep13(k: bv8)
    requires 0xD0 <= k < 0xE0
    ensures ExpTable(k + 1) == XTime(ExpTable(k))
  {
  }

  lemma ExpTableStep14(k: bv8)
    requires 0xE0 <= k < 0xF0
    ensures ExpTable(k + 1) == XTime(ExpTable(k))
  {
  }

  lemma ExpTableStep15(k: bv8)
    requires 0xF0 <= k < 0xFF
    ensures ExpTable(k + 1) == XTime(ExpTable(k))
  {
  }

  /** exp[k + 1] = 2 * exp[k]: the table lists successive powers of the generator. */
  lemma ExpTableStep(k: bv8)
    requires k < 255
    ensures ExpTable(k + 1) == XTime(ExpTable(k))
  {
    if k < 0x10 {
      ExpTableStep0(k);
    } else if k < 0x20 {
      ExpTableStep1(k);
    } else if k < 0x30 {
      ExpTableStep2(k);
    } else if k < 0x40 {
      ExpTableStep3(k);
    } else if k < 0x50 {
      ExpTableStep4(k);
    } else if k < 0x60 {
      ExpTableStep5(k);
    } else if k < 0x70 {
      ExpTableStep6(k);
    } else if k < 0x80 {
      ExpTableStep7(k);
    } else if k < 0x90 {
      ExpTableStep8(k);
    } else if k < 0xA0 {
      ExpTableStep9(k);
    } else if k < 0xB0 {
      ExpTableStep10(k);
    } else if k < 0xC0 {
      ExpTableStep11(k);
    } else if k < 0xD0 {
      ExpTableStep12(k);
    } else if k < 0xE0 {
      ExpTableStep13(k);
    } else if k < 0xF0 {
      ExpTableStep14(k);
    } else {
      ExpTableStep15(k);
    }
  }

  /** log[a] is an exponent below 255 whose power is a. */
  lemma LogTableInverse(a: bv8)
    requires a != 0
    ensures LogTable(a) < 255 && ExpTable(LogTable(a)) == a
  {
  }

  /** The first 255 powers are distinct: log recovers the exponent. */
  lemma ExpTableInverse(k: bv8)
    requires k < 255
    ensures LogTable(ExpTable(k)) == k
  {
  }

  // ---------------------------------------------------------------------------
  // The table laws, stated on powers of the generator so that no other module
  // needs to look inside the tables.

  /** Entry k of the exponent table is the k-th power of the generator. */
  lemma {:induction false} ExpTableIsPower(k: bv8)
    ensures ExpTable(k) == XTimeN(ByteValue(k), 1)
    decreases ByteValue(k)
  {
    if k != 0 {
      ExpTableIsPower(k - 1);
      ExpTableStep(k - 1);
      ByteSucc(k - 1);
    }
  }

  lemma PowerNonzero(n: nat)
    requires n < 256
    ensures XTimeN(n, 1) != 0
  {
    var k := ByteOf(n);
    ExpTableIsPower(k);
    ExpTableNonzero(k);
  }

  lemma ExpTableInjective(j: bv8, k: bv8)
    requires j < 255 && k < 255 && ExpTable(j) == ExpTable(k)
    ensures j == k
  {
    ExpTableInverse(j);
    ExpTableInverse(k);
  }

  /** The first 255 powers of the generator are distinct. */
  lemma PowerInjective(j: nat, k: nat)
    requires j < 255 && k < 255 && XTimeN(j, 1) == XTimeN(k, 1)
    ensures j == k
  {
    var bj, bk := ByteOf(j), ByteOf(k);
    ExpTableIsPower(bj);
    ExpTableIsPower(bk);
    ExpTableInjective(bj, bk);
  }

  /** log[a] is an exponent below 255 whose power is a. */
  lemma LogTableIsPower(a: bv8)
    requires a != 0
    ensures ByteValue(LogTable(a)) < 255 && XTimeN(ByteValue(LogTable(a)), 1) == a
  {
    LogTableInverse(a);
    ExpTableIsPower(LogTable(a));
  }
}

=== FILE: lagrange.dfy ===
/** Lagrange interpolation at zero over GF(256).

    `shamir_recover_secret` (src/shamir.c:159-185) rebuilds each secret byte
    as the value at 0 of the polynomial through the points (x_i, y_i) of the
    first `threshold` keys:

        p(0) = Σ_i y_i · Π_{k≠i} x_k / Π_{k≠i} (x_i + x_k)

    (in GF(256) subtraction is addition). This module defines the basis
    products, proves that the sum reproduces p(0) for every polynomial with
    no more coefficients than there are distinct points, and then shows that
    the C code's log-domain arithmetic — the sums `log_n` and `log_d` and the
    exponent `log_l` of src/shamir.c:167-179 — computes exactly these terms. */
module Lagrange {
  import opened GF256
  import opened Polynomial

  // ---------------------------------------------------------------------------
  // Basis products.

  /** The product of (z + xs[k]) over the positions k < n other than i. */
  function ProdSkip(xs: seq<Elem>, i: nat, z: Elem, n: nat): Elem
    requires n <= |xs|
  {
    if n == 0 then One
    else if n - 1 == i then ProdSkip(xs, i, z, n - 1)
    else Mul(Add(z, xs[n - 1]), ProdSkip(xs, i, z, n - 1))
  }

  /** The same product as a polynomial in z. */
  function VanishSkip(xs: seq<Elem>, i: nat, n: nat): (p: Poly)
    requires n <= |xs|
    ensures Len(p) == if i < n then n else n + 1
  {
    if n == 0 then Cons(One, Nil)
    else if n - 1 == i then VanishSkip(xs, i, n - 1)
    else MulLinear(VanishSkip(xs, i, n - 1), xs[n - 1])
  }

  /** The denominator of the i-th Lagrange weight, Π_{k≠i} (x_i + x_k). */
  function Den(xs: seq<Elem>, i: nat): Elem
    requires i < |xs|
  {
    ProdSkip(xs, i, xs[i], |xs|)
  }

  /** The i-th term of the interpolation sum at z:
      y_i · (1 / Π_{k≠i} (x_i + x_k)) · Π_{k≠i} (z + x_k). */
  function Term(xs: seq<Elem>, ys: seq<Elem>, i: nat, z: Elem): Elem
    requires i < |xs| == |ys|
  {
    Mul(Mul(ys[i], Inv(Den(xs, i))), ProdSkip(xs, i, z, |xs|))
  }

  /** The sum of the first n terms, accumulated in the order of the C loop. */
  function LagrangeSum(xs: seq<Elem>, ys: seq<Elem>, z: Elem, n: nat): Elem
    requires n <= |xs| == |ys|
  {
    if n == 0 then Zero else Add(LagrangeSum(xs, ys, z, n - 1), Term(xs, ys, n - 1, z))
  }

  /** The interpolating polynomial built from the first n terms. */
  function Interp(xs: seq<Elem>, ys: seq<Elem>, n: nat): (p: Poly)
    requires n <= |xs| == |ys|
    ensures Len(p) <= |xs|
  {
    if n == 0 then Nil
    else PolyAdd(Interp(xs, ys, n - 1), Scale(Mul(ys[n - 1], Inv(Den(xs, n - 1))), VanishSkip(xs, n - 1, |xs|)))
  }

  /** The values of p at the points xs. */
  function Values(p: Poly, xs: seq<Elem>): (ys: seq<Elem>)
    ensures |ys| == |xs|
  {
    seq(|xs|, k requires 0 <= k < |xs| => Eval(p, xs[k]))
  }

  // ---------------------------------------------------------------------------
  // Facts about sums used below.

  lemma AddZeroIff(a: Elem, b: Elem)
    ensures Add(a, b) == Zero <==> a == b
  {
    if Add(a, b) == Zero {
      assert a.byte == b.byte;
    }
  }

  lemma AddUnits(a: Elem)
    ensures Add(a, Zero) == a && Add(Zero, a) == a && Add(a, a) == Zero
  {
  }

  // ---------------------------------------------------------------------------
  // The basis products.

  /** The basis polynomial evaluates to the basis product. */
  lemma {:induction false} EvalVanishSkip(xs: seq<Elem>, i: nat, n: nat, z: Elem)
    requires n <= |xs|
    ensures Eval(VanishSkip(xs, i, n), z) == ProdSkip(xs, i, z, n)
  {
    if n == 0 {
      AddUnits(One);
    } else if n - 1 == i {
      EvalVanishSkip(xs, i, n - 1, z);
    } else {
      EvalVanishSkip(xs, i, n - 1, z);
      EvalMulLinear(VanishSkip(xs, i, n - 1), xs[n - 1], z);
    }
  }

  /** The basis product vanishes exactly at the other points. */
  lemma {:induction false} ProdSkipZero(xs: seq<Elem>, i: nat, z: Elem, n: nat)
    requires n <= |xs|
    ensures ProdSkip(xs, i, z, n) == Zero <==> exists k :: 0 <= k < n && k != i && xs[k] == z
  {
    if n == 0 {
    } else if n - 1 == i {
      ProdSkipZero(xs, i, z, n - 1);
      if exists k :: 0 <= k < n && k != i && xs[k] == z {
        var k :| 0 <= k < n && k != i && xs[k] == z;
        assert k < n - 1;
      }
    } else {
      var prev := ProdSkip(xs, i, z, n - 1);
      ProdSkipZero(xs, i, z, n - 1);
      MulNonzero(Add(z, xs[n - 1]), prev);
      AddZeroIff(z, xs[n - 1]);
      if exists k :: 0 <= k < n && k != i && xs[k] == z {
        var k :| 0 <= k < n && k != i && xs[k] == z;
        if k < n - 1 {
          assert prev == Zero;
        } else {
          assert Add(z, xs[n - 1]) == Zero;
        }
      }
      if ProdSkip(xs, i, z, n) == Zero {
        if Add(z, xs[n - 1]) == Zero {
          assert xs[n - 1] == z;
        } else {
          assert prev == Zero;
          var k :| 0 <= k < n - 1 && k != i && xs[k] == z;
        }
      }
    }
  }

  /** In a distinct sequence no other position holds the same point. */
  lemma DistinctOthers(xs: seq<Elem>, i: nat)
    requires Distinct(xs) && i < |xs|
    ensures forall k :: 0 <= k < |xs| && k != i ==> xs[k] != xs[i]
  {
    forall k | 0 <= k < |xs| && k != i
      ensures xs[k] != xs[i]
    {
      if k < i {
        assert xs[k] != xs[i];
      } else {
        assert xs[i] != xs[k];
      }
    }
  }

  /** Over distinct points the denominators are nonzero. */
  lemma DenNonzero(xs: seq<Elem>, i: nat)
    requires Distinct(xs) && i < |xs|
    ensures Den(xs, i) != Zero
  {
    DistinctOthers(xs, i);
    ProdSkipZero(xs, i, xs[i], |xs|);
  }

  // ---------------------------------------------------------------------------
  // The interpolation sum.

  /** y·(1/d)·d == y. */
  lemma CancelDen(y: Elem, d: Elem)
    requires d != Zero
    ensures Mul(Mul(y, Inv(d)), d) == y
  {
    MulAssociates(y, Inv(d), d);
    MulCommutes(Inv(d), d);
    MulInverse(d);
    MulOne(y);
  }

  /** At the point x_k the k-th term is y_k and every other term is zero. */
  lemma TermAtNode(xs: seq<Elem>, ys: seq<Elem>, i: nat, k: nat)
    requires Distinct(xs) && i < |xs| == |ys| && k < |xs|
    ensures Term(xs, ys, i, xs[k]) == if i == k then ys[k] else Zero
  {
    if i == k {
      DenNonzero(xs, i);
      CancelDen(ys[i], Den(xs, i));
    } else {
      ProdSkipZero(xs, i, xs[k], |xs|);
      assert ProdSkip(xs, i, xs[k], |xs|) == Zero;
    }
  }

  /** The first n terms at x_k sum to y_k when k < n, and to zero otherwise. */
  lemma {:induction false} LagrangeSumAtNode(xs: seq<Elem>, ys: seq<Elem>, n: nat, k: nat)
    requires Distinct(xs) && n <= |xs| == |ys| && k < |xs|
    ensures LagrangeSum(xs, ys, xs[k], n) == if k < n then ys[k] else Zero
  {
    if n > 0 {
      LagrangeSumAtNode(xs, ys, n - 1, k);
      TermAtNode(xs, ys, n - 1, k);
      AddUnits(ys[k]);
      AddUnits(LagrangeSum(xs, ys, xs[k], n - 1));
    }
  }

  lemma InterpStep(xs: seq<Elem>, ys: seq<Elem>, n: nat, z: Elem, prev: Elem, v: Poly, pv: Elem)
    requires 0 < n <= |xs| == |ys|
    requires prev == Eval(Interp(xs, ys, n - 1), z) && prev == LagrangeSum(xs, ys, z, n - 1)
    requires v == VanishSkip(xs, n - 1, |xs|) && pv == Eval(v, z) && pv == ProdSkip(xs, n - 1, z, |xs|)
    ensures Eval(Interp(xs, ys, n), z) == LagrangeSum(xs, ys, z, n)
  {
    var c := Mul(ys[n - 1], Inv(Den(xs, n - 1)));
    var q := Interp(xs, ys, n - 1);
    assert Interp(xs, ys, n) == PolyAdd(q, Scale(c, v));
    assert LagrangeSum(xs, ys, z, n) == Add(prev, Mul(c, pv));
    EvalAddScale(q, c, v, z);
  }

  lemma EvalInterpStep(xs: seq<Elem>, ys: seq<Elem>, n: nat, z: Elem)
    requires 0 < n <= |xs| == |ys|
    requires Eval(Interp(xs, ys, n - 1), z) == LagrangeSum(xs, ys, z, n - 1)
    ensures Eval(Interp(xs, ys, n), z) == LagrangeSum(xs, ys, z, n)
  {
    EvalVanishSkip(xs, n - 1, |xs|, z);
    InterpStep(xs, ys, n, z, LagrangeSum(xs, ys, z, n - 1),
               VanishSkip(xs, n - 1, |xs|), ProdSkip(xs, n - 1, z, |xs|));
  }

  /** The interpolating polynomial evaluates to the interpolation sum. */
  lemma {:induction false} EvalInterp(xs: seq<Elem>, ys: seq<Elem>, n: nat, z: Elem)
    requires n <= |xs| == |ys|
    ensures Eval(Interp(xs, ys, n), z) == LagrangeSum(xs, ys, z, n)
  {
    if n > 0 {
      EvalInterp(xs, ys, n - 1, z);
      EvalInterpStep(xs, ys, n, z);
    }
  }

  /** Lagrange interpolation: from the values of p at |xs| distinct points,
      the interpolation sum at zero gives p(0), provided p has at most |xs|
      coefficients. */
  lemma Interpolate(p: Poly, xs: seq<Elem>)
    requires Distinct(xs) && Len(p) <= |xs|
    ensures LagrangeSum(xs, Values(p, xs), Zero, |xs|) == Eval(p, Zero)
  {
    var ys := Values(p, xs);
    var q := Interp(xs, ys, |xs|);
    var d := PolyAdd(p, q);
    forall k | 0 <= k < |xs|
      ensures Eval(d, xs[k]) == Zero
    {
      EvalAdd(p, q, xs[k]);
      EvalInterp(xs, ys, |xs|, xs[k]);
      LagrangeSumAtNode(xs, ys, |xs|, k);
      AddUnits(ys[k]);
    }
    RootsVanish(d, xs, Zero);
    EvalAdd(p, q, Zero);
    EvalInterp(xs, ys, |xs|, Zero);
    AddZeroIff(Eval(p, Zero), Eval(q, Zero));
  }

  // ---------------------------------------------------------------------------
  // The log domain of src/shamir.c:167-182.

  /** `log_n`: the sum of log x_k over the positions k < n other than i. */
  function LogNum(xs: seq<Elem>, i: nat, n: nat): nat
    requires n <= |xs|
  {
    if n == 0 then 0
    else if n - 1 == i then LogNum(xs, i, n - 1)
    else LogNum(xs, i, n - 1) + Log(xs[n - 1])
  }

  /** `log_d`: the sum of log (x_i + x_k) over the positions k < n other than i. */
  function LogDen(xs: seq<Elem>, i: nat, n: nat): nat
    requires n <= |xs| && i < |xs|
  {
    if n == 0 then 0
    else if n - 1 == i then LogDen(xs, i, n - 1)
    else LogDen(xs, i, n - 1) + Log(Add(xs[i], xs[n - 1]))
  }

  /** `log_l`, the exponent of the weight numerator / denominator
      (src/shamir.c:179). Adding 255 before subtracting keeps it positive, so
      the unsigned C arithmetic never wraps; it is congruent to
      log_n − log_d modulo 255. */
  function LogLagrange(logN: nat, logD: nat): (r: nat)
    ensures 1 <= r <= 509
    ensures (r + logD % 255) % 255 == logN % 255
  {
    (logN % 255 + 255) - logD % 255
  }

  /** The power of log_n is the numerator Π_{k≠i} x_k, when the points are
      nonzero. */
  lemma {:induction false} ExpLogNum(xs: seq<Elem>, i: nat, n: nat)
    requires n <= |xs|
    requires forall k :: 0 <= k < n && k != i ==> xs[k] != Zero
    ensures Exp(LogNum(xs, i, n)) == ProdSkip(xs, i, Zero, n)
  {
    if n > 0 && n - 1 != i {
      var x := xs[n - 1];
      ExpLogNum(xs, i, n - 1);
      ExpAdd(LogNum(xs, i, n - 1), Log(x));
      MulCommutes(ProdSkip(xs, i, Zero, n - 1), x);
      AddUnits(x);
    } else if n > 0 {
      ExpLogNum(xs, i, n - 1);
    }
  }

  /** The power of log_d is the denominator Π_{k≠i} (x_i + x_k), when the
      points are distinct. */
  lemma {:induction false} ExpLogDen(xs: seq<Elem>, i: nat, n: nat)
    requires n <= |xs| && i < |xs|
    requires forall k :: 0 <= k < n && k != i ==> xs[k] != xs[i]
    ensures Exp(LogDen(xs, i, n)) == ProdSkip(xs, i, xs[i], n)
  {
    if n > 0 && n - 1 != i {
      var d := Add(xs[i], xs[n - 1]);
      ExpLogDen(xs, i, n - 1);
      AddZeroIff(xs[i], xs[n - 1]);
      ExpAdd(LogDen(xs, i, n - 1), Log(d));
      MulCommutes(ProdSkip(xs, i, xs[i], n - 1), d);
    } else if n > 0 {
      ExpLogDen(xs, i, n - 1);
    }
  }

  /** The term the C code adds for key i, `exp[log y + log_l]`, skipped when
      y is zero (src/shamir.c:180-182). */
  function RecoverTerm(xs: seq<Elem>, ys: seq<Elem>, i: nat): Elem
    requires i < |xs| == |ys|
  {
    if ys[i] == Zero then Zero
    else Exp(Log(ys[i]) + LogLagrange(LogNum(xs, i, |xs|), LogDen(xs, i, |xs|)))
  }

  /** The byte the C code accumulates over the first n keys. */
  function RecoverSum(xs: seq<Elem>, ys: seq<Elem>, n: nat): Elem
    requires n <= |xs| == |ys|
  {
    if n == 0 then Zero else Add(RecoverSum(xs, ys, n - 1), RecoverTerm(xs, ys, n - 1))
  }

  /** Points that are nonzero and pairwise distinct, as keys from
      `shamir_get_keys` are. */
  predicate GoodPoints(xs: seq<Elem>) {
    Distinct(xs) && forall k :: 0 <= k < |xs| ==> xs[k] != Zero
  }

  lemma ModMultiple(a: nat, q: nat)
    ensures (a + 255 * q) % 255 == a % 255
  {
  }

  lemma ExpSumShape(ly: nat, ln: nat, ld: nat)
    ensures Exp(ly + (255 - ld % 255) + ln) == Exp(ly + LogLagrange(ln, ld))
  {
    var a := ly + LogLagrange(ln, ld);
    assert ly + (255 - ld % 255) + ln == a + 255 * (ln / 255);
    ModMultiple(a, ln / 255);
  }

  /** exp[log y + log_l] == y · (1 / exp[log_d]) · exp[log_n]. */
  lemma LogTermAlgebra(y: Elem, ln: nat, ld: nat)
    requires y != Zero
    ensures Exp(Log(y) + LogLagrange(ln, ld)) == Mul(Mul(y, Inv(Exp(ld))), Exp(ln))
  {
    var ly := Log(y);
    ExpNonzero(ld);
    LogExp(ld);
    assert Inv(Exp(ld)) == Exp(255 - ld % 255);
    ExpAdd(ly, 255 - ld % 255);
    ExpAdd(ly + (255 - ld % 255), ln);
    ExpSumShape(ly, ln, ld);
  }

  /** The log-domain term is the Lagrange term at zero. */
  lemma RecoverTermIsTerm(xs: seq<Elem>, ys: seq<Elem>, i: nat)
    requires GoodPoints(xs) && i < |xs| == |ys|
    ensures RecoverTerm(xs, ys, i) == Term(xs, ys, i, Zero)
  {
    if ys[i] == Zero {
      assert Mul(ys[i], Inv(Den(xs, i))) == Zero;
    } else {
      ExpLogNum(xs, i, |xs|);
      DistinctOthers(xs, i);
      ExpLogDen(xs, i, |xs|);
      LogTermAlgebra(ys[i], LogNum(xs, i, |xs|), LogDen(xs, i, |xs|));
    }
  }

  /** The C code's log-domain sum equals the Lagrange sum at zero. */
  lemma {:induction false} RecoverSumIsLagrange(xs: seq<Elem>, ys: seq<Elem>, n: nat)
    requires GoodPoints(xs) && n <= |xs| == |ys|
    ensures RecoverSum(xs, ys, n) == LagrangeSum(xs, ys, Zero, n)
  {
    if n > 0 {
      RecoverSumIsLagrange(xs, ys, n - 1);
      RecoverTermIsTerm(xs, ys, n - 1);
    }
  }

  /** Recovery in the log domain returns p(0) from the values of p at
      nonzero distinct points, when p has at most that many coefficients. */
  lemma RecoverValueAtZero(p: Poly, xs: seq<Elem>)
    requires GoodPoints(xs) && Len(p) <= |xs|
    ensures RecoverSum(xs, Values(p, xs), |xs|) == Eval(p, Zero)
  {
    RecoverSumIsLagrange(xs, Values(p, xs), |xs|);
    Interpolate(p, xs);
  }
}

=== FILE: polynomial.dfy ===
/** Polynomials over GF(256).

    A polynomial is its list of coefficients, constant term first: the i-th
    cell holds the coefficient of x^i, the order in which the C code stores
    the `threshold` coefficients of one polynomial (`_c(params, p, i, j)`,
    src/shamir.c:56). Evaluation is Horner's rule, the loop of
    `_shamir_get_key`. This module relates it to the textbook sum of powers
    and proves the fact the Lagrange reconstruction rests on: a polynomial
    with no more coefficients than it has distinct roots is zero everywhere. */
module Polynomial {
  import opened GF256

  datatype Poly = Nil | Cons(head: Elem, tail: Poly)

  /** The number of coefficients (one more than the degree bound). */
  function Len(p: Poly): nat {
    match p
    case Nil => 0
    case Cons(_, t) => 1 + Len(t)
  }

  /** The polynomial whose coefficients are the elements of s, s[0] first. */
  function FromSeq(s: seq<Elem>): (p: Poly)
    ensures Len(p) == |s|
  {
    if |s| == 0 then Nil else Cons(s[0], FromSeq(s[1..]))
  }

  /** Horner's rule: c0 + x·(c1 + x·(… + x·c_{t-1})). */
  function Eval(p: Poly, x: Elem): Elem {
    match p
    case Nil => Zero
    case Cons(c, t) => Add(c, Mul(x, Eval(t, x)))
  }

  /** x^i. */
  function Pow(x: Elem, i: nat): Elem {
    if i == 0 then One else Mul(x, Pow(x, i - 1))
  }

  /** The sum of c_i·x^(k+i) over the coefficients c_i of p. */
  function PowerSumFrom(p: Poly, x: Elem, k: nat): Elem {
    match p
    case Nil => Zero
    case Cons(c, t) => Add(Mul(c, Pow(x, k)), PowerSumFrom(t, x, k + 1))
  }

  /** The value of p at x by its definition, the sum of c_i·x^i. */
  function PowerSum(p: Poly, x: Elem): Elem {
    PowerSumFrom(p, x, 0)
  }

  /** Every coefficient is zero. */
  predicate IsZero(p: Poly) {
    match p
    case Nil => true
    case Cons(c, t) => c == Zero && IsZero(t)
  }

  /** Every element of xs is different from every other. */
  predicate Distinct(xs: seq<Elem>) {
    forall i, j :: 0 <= i < j < |xs| ==> xs[i] != xs[j]
  }

  // ---------------------------------------------------------------------------
  // Two consequences of the field laws used throughout, and the bookkeeping
  // of sums the proofs below reduce to.

  lemma MulDistributesRight(a: Elem, b: Elem, c: Elem)
    ensures Mul(Add(a, b), c) == Add(Mul(a, c), Mul(b, c))
  {
    MulCommutes(Add(a, b), c);
    MulCommutes(a, c);
    MulCommutes(b, c);
    MulDistributes(c, a, b);
  }

  lemma MulSwap(a: Elem, b: Elem, c: Elem)
    ensures Mul(a, Mul(b, c)) == Mul(b, Mul(a, c))
  {
    MulAssociates(a, b, c);
    MulAssociates(b, a, c);
    MulCommutes(a, b);
  }

  // AddSubst, AddPairs, AddShuffle and AddZeroLeft are XOR rearrangements
  // named once, so that the Horner and remainder proofs below need not
  // restate them on large terms, which the solver handles badly.

  lemma AddSubst(a: Elem, p: Elem, q: Elem, g: Elem)
    requires p == q && g == Add(a, q)
    ensures Add(a, p) == g && Add(p, a) == g
  {
  }

  lemma AddPairs(a: Elem, b: Elem, m: Elem, p: Elem, q: Elem)
    requires m == Add(p, q)
    ensures Add(Add(a, b), m) == Add(Add(a, p), Add(b, q))
  {
  }

  lemma AddShuffle(a: Elem, b: Elem, c: Elem, d: Elem, e: Elem, g: Elem, h: Elem)
    requires b == Add(c, d) && d == e && g == Add(h, e) && h == Add(c, a)
    ensures Add(a, b) == g && b == Add(a, g)
  {
  }

  lemma AddZeroLeft(m: Elem, n: Elem, s: Elem, g: Elem)
    requires s == Add(Add(Zero, m), n) && g == Add(m, n)
    ensures s == g
  {
  }

  // ---------------------------------------------------------------------------
  // Horner's rule computes the sum of powers.

  /** c·(x·w) + x·s == x·(c·w + s): one term of PowerSumShift. */
  lemma PowerSumShiftStep(c: Elem, x: Elem, w: Elem, s: Elem)
    ensures Add(Mul(c, Mul(x, w)), Mul(x, s)) == Mul(x, Add(Mul(c, w), s))
  {
    MulSwap(c, x, w);
    MulDistributes(x, Mul(c, w), s);
    AddSubst(Mul(x, s), Mul(c, Mul(x, w)), Mul(x, Mul(c, w)), Mul(x, Add(Mul(c, w), s)));
  }

  lemma {:induction false} PowerSumShift(p: Poly, x: Elem, k: nat)
    ensures PowerSumFrom(p, x, k + 1) == Mul(x, PowerSumFrom(p, x, k))
  {
    match p
    case Nil =>
      MulCommutes(x, Zero);
    case Cons(c, t) =>
      PowerSumShift(t, x, k + 1);
      PowerSumShiftStep(c, x, Pow(x, k), PowerSumFrom(t, x, k + 1));
  }

  /** Horner's rule agrees with the sum of c_i·x^i. */
  lemma {:induction false} EvalIsPowerSum(p: Poly, x: Elem)
    ensures Eval(p, x) == PowerSum(p, x)
  {
    match p
    case Nil =>
    case Cons(c, t) =>
      EvalIsPowerSum(t, x);
      PowerSumShift(t, x, 0);
      MulOne(c);
  }

  /** The zero polynomial is zero everywhere. */
  lemma {:induction false} EvalZero(p: Poly, x: Elem)
    requires IsZero(p)
    ensures Eval(p, x) == Zero
  {
    match p
    case Nil =>
    case Cons(_, t) =>
      EvalZero(t, x);
  }

  /** Zero coefficients make the zero polynomial. */
  lemma {:induction false} FromSeqZero(s: seq<Elem>)
    requires forall i :: 0 <= i < |s| ==> s[i] == Zero
    ensures IsZero(FromSeq(s))
    decreases |s|
  {
    if |s| > 0 {
      FromSeqZero(s[1..]);
    }
  }

  /** The value at 0 is the constant term. */
  lemma EvalAtZero(p: Poly)
    ensures Eval(p, Zero) == if p.Nil? then Zero else p.head
  {
  }

  // ---------------------------------------------------------------------------
  // Sum, scalar multiple, and product with a linear factor.

  function PolyAdd(p: Poly, q: Poly): (r: Poly)
    ensures Len(r) == if Len(p) < Len(q) then Len(q) else Len(p)
  {
    match (p, q)
    case (Nil, _) => q
    case (_, Nil) => p
    case (Cons(a, s), Cons(b, t)) => Cons(Add(a, b), PolyAdd(s, t))
  }

  lemma EvalAddStep(a: Elem, s: Poly, b: Elem, t: Poly, x: Elem, es: Elem, et: Elem, er: Elem)
    requires es == Eval(s, x) && et == Eval(t, x)
    requires er == Eval(PolyAdd(s, t), x) && er == Add(es, et)
    ensures Eval(PolyAdd(Cons(a, s), Cons(b, t)), x) == Add(Eval(Cons(a, s), x), Eval(Cons(b, t), x))
  {
    MulDistributes(x, es, et);
    AddPairs(a, b, Mul(x, er), Mul(x, es), Mul(x, et));
  }

  lemma {:induction false} EvalAdd(p: Poly, q: Poly, x: Elem)
    ensures Eval(PolyAdd(p, q), x) == Add(Eval(p, x), Eval(q, x))
  {
    match (p, q)
    case (Nil, _) =>
    case (_, Nil) =>
    case (Cons(a, s), Cons(b, t)) =>
      EvalAdd(s, t, x);
      EvalAddStep(a, s, b, t, x, Eval(s, x), Eval(t, x), Eval(PolyAdd(s, t), x));
  }

  function Scale(c: Elem, p: Poly): (r: Poly)
    ensures Len(r) == Len(p)
  {
    match p
    case Nil => Nil
    case Cons(a, t) => Cons(Mul(c, a), Scale(c, t))
  }

  /** c·a + x·(c·e) == c·(a + x·e): one Horner step of a scaled polynomial. */
  lemma ScaleStep(c: Elem, a: Elem, x: Elem, e: Elem)
    ensures Add(Mul(c, a), Mul(x, Mul(c, e))) == Mul(c, Add(a, Mul(x, e)))
  {
    MulSwap(x, c, e);
    MulDistributes(c, a, Mul(x, e));
    AddSubst(Mul(c, a), Mul(x, Mul(c, e)), Mul(c, Mul(x, e)), Mul(c, Add(a, Mul(x, e))));
  }

  lemma {:induction false} EvalScale(c: Elem, p: Poly, x: Elem)
    ensures Eval(Scale(c, p), x) == Mul(c, Eval(p, x))
  {
    match p
    case Nil =>
      MulCommutes(c, Zero);
    case Cons(a, t) =>
      EvalScale(c, t, x);
      ScaleStep(c, a, x, Eval(t, x));
  }

  /** Adding a scaled polynomial adds the scaled value. */
  lemma EvalAddScale(p: Poly, c: Elem, q: Poly, x: Elem)
    ensures Eval(PolyAdd(p, Scale(c, q)), x) == Add(Eval(p, x), Mul(c, Eval(q, x)))
  {
    EvalAdd(p, Scale(c, q), x);
    EvalScale(c, q, x);
  }

  /** The product (x + r)·p, as x·p + r·p. */
  function MulLinear(p: Poly, r: Elem): (m: Poly)
    ensures Len(m) == Len(p) + 1
  {
    PolyAdd(Cons(Zero, p), Scale(r, p))
  }

  /** MulLinear multiplies the values by (x + r). */
  lemma EvalMulLinear(p: Poly, r: Elem, x: Elem)
    ensures Eval(MulLinear(p, r), x) == Mul(Add(x, r), Eval(p, x))
  {
    var v := Eval(p, x);
    EvalAdd(Cons(Zero, p), Scale(r, p), x);
    EvalScale(r, p, x);
    MulDistributesRight(x, r, v);
    AddZeroLeft(Mul(x, v), Mul(r, v), Eval(MulLinear(p, r), x), Mul(Add(x, r), v));
  }

  // ---------------------------------------------------------------------------
  // Division by a linear factor, and the root bound.

  /** The quotient of p by (x + r), by synthetic division. */
  function Quot(p: Poly, r: Elem): (q: Poly)
    ensures Len(q) == if p.Nil? then 0 else Len(p) - 1
  {
    match p
    case Nil => Nil
    case Cons(_, Nil) => Nil
    case Cons(_, t) => Cons(Eval(t, r), Quot(t, r))
  }

  /** x·(b + (x + r)·e) == r·b + (x + r)·(b + x·e): one Horner step of
      synthetic division. */
  lemma QuotStep(b: Elem, r: Elem, x: Elem, e: Elem)
    ensures Mul(x, Add(b, Mul(Add(x, r), e))) == Add(Mul(r, b), Mul(Add(x, r), Add(b, Mul(x, e))))
  {
    MulDistributes(x, b, Mul(Add(x, r), e));
    MulSwap(x, Add(x, r), e);
    MulDistributes(Add(x, r), b, Mul(x, e));
    MulDistributesRight(x, r, b);
    AddShuffle(Mul(r, b), Mul(x, Add(b, Mul(Add(x, r), e))), Mul(x, b), Mul(x, Mul(Add(x, r), e)),
               Mul(Add(x, r), Mul(x, e)), Mul(Add(x, r), Add(b, Mul(x, e))), Mul(Add(x, r), b));
  }

  /** The inductive step of EvalQuot, split out to keep that proof small. */
  lemma EvalQuotStep(a: Elem, t: Poly, r: Elem, x: Elem, tx: Elem, tr: Elem, qx: Elem)
    requires t.Cons?
    requires tx == Eval(t, x) && tr == Eval(t, r) && qx == Eval(Quot(t, r), x)
    requires tx == Add(tr, Mul(Add(x, r), qx))
    ensures Eval(Cons(a, t), x) == Add(Eval(Cons(a, t), r), Mul(Add(x, r), Eval(Quot(Cons(a, t), r), x)))
  {
    QuotStep(tr, r, x, qx);
    AddPairs(a, a, Mul(x, tx), Mul(r, tr), Mul(Add(x, r), Add(tr, Mul(x, qx))));
  }

  /** The remainder theorem: p(x) == p(r) + (x + r)·q(x). */
  lemma {:induction false} EvalQuot(p: Poly, r: Elem, x: Elem)
    ensures Eval(p, x) == Add(Eval(p, r), Mul(Add(x, r), Eval(Quot(p, r), x)))
  {
    match p
    case Nil =>
      MulCommutes(Add(x, r), Zero);
    case Cons(a, Nil) =>
      MulCommutes(x, Zero);
      MulCommutes(r, Zero);
      MulCommutes(Add(x, r), Zero);
    case Cons(a, t) =>
      EvalQuot(t, r, x);
      EvalQuotStep(a, t, r, x, Eval(t, x), Eval(t, r), Eval(Quot(t, r), x));
  }

  /** A polynomial with no more coefficients than it has distinct roots is
      zero everywhere. */
  lemma {:induction false} RootsVanish(p: Poly, xs: seq<Elem>, z: Elem)
    requires Len(p) <= |xs|
    requires Distinct(xs)
    requires forall k :: 0 <= k < |xs| ==> Eval(p, xs[k]) == Zero
    ensures Eval(p, z) == Zero
    decreases |xs|
  {
    if p.Cons? {
      var r := xs[0];
      var q := Quot(p, r);
      var rest := xs[1..];
      forall k | 0 <= k < |rest|
        ensures Eval(q, rest[k]) == Zero
      {
        var y := xs[k + 1];
        EvalQuot(p, r, y);
        MulNonzero(Add(y, r), Eval(q, y));
      }
      RootsVanish(q, rest, z);
      EvalQuot(p, r, z);
    } else {
      assert Eval(p, z) == Zero;
    }
  }
}

=== FILE: shamir.dfy ===
/** Threshold sharing of a byte string (src/shamir.c).

    Every byte j of the secret gets its own random polynomial p_j over
    GF(256) with `threshold` coefficients whose constant term is the byte.
    A key is a nonzero point x followed by the values p_j(x) for every j;
    any `threshold` keys with distinct points give back every p_j(0) by
    Lagrange interpolation at zero.

    The coefficients are indexed as in the C code: coeffs[j][i] is the
    coefficient of x^i in polynomial j (`_c(params, p, i, j)`,
    src/shamir.c:56). The random source is a parameter. */
module Shamir {
  import opened GF256Tables
  import opened GF256
  import opened Polynomial
  import opened Lagrange

  /** `MAX_KEYS` (src/shamir.c:13). */
  const MaxKeys := 254

  /** `shamir_params_t` (include/shamir.h:9-12): the number of secret bytes
      and the number of keys needed to recover them. */
  datatype Params = Params(size: nat, threshold: nat)

  /** The only error the core reports is `EINVAL`. */
  datatype Error = InvalidArgument

  datatype Result<T> = Ok(value: T) | Fail(error: Error)

  /** A key: the point x and the value of every polynomial at x. As bytes
      it is x followed by the values (src/shamir.c:113-122). */
  datatype Key = Key(x: Elem, ys: seq<Elem>)

  /** `params_invalid` (src/shamir.c:22-26). */
  predicate ParamsInvalid(params: Params) {
    params.threshold < 2 || params.threshold > MaxKeys || params.size < 1
  }

  /** A polynomial buffer of the shape the parameters describe: `size`
      polynomials of `threshold` coefficients each. */
  predicate Shaped(params: Params, coeffs: seq<seq<Elem>>) {
    |coeffs| == params.size && forall j :: 0 <= j < |coeffs| ==> |coeffs[j]| == params.threshold
  }

  /** Polynomial j of the buffer. */
  function PolyOf(coeffs: seq<seq<Elem>>, j: nat): Poly
    requires j < |coeffs|
  {
    FromSeq(coeffs[j])
  }

  /** The bytes of a key as they are laid out in memory. */
  function KeyBytes(k: Key): seq<Elem> {
    [k.x] + k.ys
  }

  // ---------------------------------------------------------------------------
  // Buffer sizes (src/shamir.c:28-38).

  /** `shamir_poly_size` with the validity test it evidently intends: the
      polynomial buffer holds `size` polynomials of `threshold` bytes. */
  function PolySize(params: Params): (r: Result<nat>)
    ensures r.Fail? <==> ParamsInvalid(params)
  {
    if ParamsInvalid(params) then Fail(InvalidArgument) else Ok(params.size * params.threshold)
  }

  /** `shamir_key_size` with the intended validity test: a key is x followed
      by one byte per secret byte. */
  function KeySize(params: Params): (r: Result<nat>)
    ensures r.Fail? <==> ParamsInvalid(params)
  {
    if ParamsInvalid(params) then Fail(InvalidArgument) else Ok(params.size + 1)
  }

  /** `shamir_poly_size` as written. Line 29 tests `params_invalid`, the
      function itself rather than a call of it; a function designator
      converts to its address, which is never null, so every call fails. */
  function PolySizeAsWritten(params: Params): Result<nat> {
    Fail(InvalidArgument)
  }

  /** `shamir_key_size` as written, with the same test at line 35. */
  function KeySizeAsWritten(params: Params): Result<nat> {
    Fail(InvalidArgument)
  }

  // ---------------------------------------------------------------------------
  // Polynomial initialisation (src/shamir.c:75-111).

  lemma RowOffset(params: Params, j: nat, i: nat)
    requires j < params.size && i < params.threshold
    ensures j * params.threshold + i < params.size * params.threshold
  {
    assert (j + 1) * params.threshold <= params.size * params.threshold;
  }

  /** `_c(params, p, i, j)` of the random fill: byte j·threshold + i. */
  function RandomAt(params: Params, random: seq<Elem>, j: nat, i: nat): Elem
    requires |random| == params.size * params.threshold
    requires j < params.size && i < params.threshold
  {
    RowOffset(params, j, i);
    random[j * params.threshold + i]
  }

  /** The buffer after the random fill and the constant terms: coefficient
      (i, j) is byte j·threshold + i of the random fill, except that every
      constant term is the secret byte. */
  function Coefficients(params: Params, secret: seq<Elem>, random: seq<Elem>): (coeffs: seq<seq<Elem>>)
    requires |secret| == params.size && |random| == params.size * params.threshold
    ensures Shaped(params, coeffs)
  {
    seq(params.size, j requires 0 <= j < params.size =>
      seq(params.threshold, i requires 0 <= i < params.threshold =>
        if i == 0 then secret[j] else RandomAt(params, random, j, i)))
  }

  /** `shamir_init_poly` with the corrected size function. The `random`
      bytes stand for what the C code reads from the random device into the
      whole buffer; the caller supplies as many as the buffer holds. */
  function InitPoly(params: Params, secret: seq<Elem>, random: seq<Elem>): (r: Result<seq<seq<Elem>>>)
    requires |secret| == params.size && |random| == params.size * params.threshold
    ensures r.Fail? <==> ParamsInvalid(params)
    ensures r.Ok? ==> Shaped(params, r.value) && PolySize(params) == Ok(|random|)
    ensures r.Ok? ==> forall j, i :: 0 <= j < params.size && 0 <= i < params.threshold ==>
      r.value[j][i] == if i == 0 then secret[j] else RandomAt(params, random, j, i)
  {
    if ParamsInvalid(params) then Fail(InvalidArgument)
    else
      match PolySize(params)
      case Fail(e) => Fail(e)
      case Ok(_) => Ok(Coefficients(params, secret, random))
  }

  /** `shamir_init_poly` as written: it asks the as-written size function,
      which always fails (src/shamir.c:79-80). */
  function InitPolyAsWritten(params: Params, secret: seq<Elem>, random: seq<Elem>): Result<seq<seq<Elem>>>
    requires |secret| == params.size && |random| == params.size * params.threshold
  {
    if ParamsInvalid(params) then Fail(InvalidArgument)
    else
      match PolySizeAsWritten(params)
      case Fail(e) => Fail(e)
      case Ok(_) => Ok(Coefficients(params, secret, random))
  }

  /** The defect of src/shamir.c:29 and 35: as written, both size functions
      and hence `shamir_init_poly` fail for every input, valid parameters
      included, where the intended versions succeed. */
  lemma SizesAsWrittenAlwaysFail(params: Params, secret: seq<Elem>, random: seq<Elem>)
    requires |secret| == params.size && |random| == params.size * params.threshold
    ensures PolySizeAsWritten(params).Fail? && KeySizeAsWritten(params).Fail?
    ensures InitPolyAsWritten(params, secret, random).Fail?
    ensures !ParamsInvalid(params) ==>
              PolySize(params).Ok? && KeySize(params).Ok? && InitPoly(params, secret, random).Ok?
  {
  }

  // ---------------------------------------------------------------------------
  // Key evaluation (src/shamir.c:113-157).

  /** The key for point x: the value of every polynomial at x. */
  function KeyFor(coeffs: seq<seq<Elem>>, x: Elem): (k: Key)
    ensures |k.ys| == |coeffs|
  {
    Key(x, seq(|coeffs|, j requires 0 <= j < |coeffs| => Eval(PolyOf(coeffs, j), x)))
  }

  /** The Horner step of the C loop: `if (y) y = exp[log_x + log[y]]` is
      y·x, and zero stays zero. */
  lemma HornerStep(x: Elem, y: Elem)
    requires x != Zero
    ensures (if y != Zero then Exp(Log(x) + Log(y)) else y) == Mul(x, y)
  {
  }

  lemma EvalSuffix(c: seq<Elem>, i: nat, x: Elem)
    requires i < |c|
    ensures Eval(FromSeq(c[i..]), x) == Add(c[i], Mul(x, Eval(FromSeq(c[i + 1..]), x)))
  {
    assert c[i..][1..] == c[i + 1..];
  }

  /** The inner loop of `_shamir_get_key` (src/shamir.c:132-140): Horner's
      rule from the top coefficient down, multiplying by x in the log domain
      and adding the next coefficient. `y &= GF256_MASK` keeps a value that
      is already a byte, so the model leaves it out. */
  method Horner(c: seq<Elem>, x: Elem) returns (y: Elem)
    requires |c| >= 1 && x != Zero
    ensures y == Eval(FromSeq(c), x)
  {
    var logX := Log(x);
    var i := |c| - 1;
    y := c[i];
    assert c[i..] == [c[i]];
    while i > 0
      invariant 0 <= i < |c|
      invariant y == Eval(FromSeq(c[i..]), x)
    {
      i := i - 1;
      HornerStep(x, y);
      if y != Zero {
        y := Exp(logX + Log(y));
      }
      EvalSuffix(c, i, x);
      y := Add(y, c[i]);
    }
    assert c[0..] == c;
  }

  /** A polynomial whose only nonzero coefficient is the constant term has
      that term as its value everywhere: the loop then adds c0 to x·0. */
  lemma ConstantKey(c: seq<Elem>, x: Elem)
    requires |c| >= 1 && forall i :: 1 <= i < |c| ==> c[i] == Zero
    ensures Eval(FromSeq(c), x) == c[0]
  {
    FromSeqZero(c[1..]);
    EvalZero(FromSeq(c[1..]), x);
  }

  /** A key whose values are those of the polynomials at x is the key for x. */
  lemma KeyIsKeyFor(params: Params, coeffs: seq<seq<Elem>>, x: Elem, k: Key)
    requires Shaped(params, coeffs)
    requires k.x == x && |k.ys| == params.size
    requires forall j :: 0 <= j < params.size ==> k.ys[j] == Eval(PolyOf(coeffs, j), x)
    ensures k == KeyFor(coeffs, x)
  {
  }

  /** `_shamir_get_key`: rejects invalid parameters and x == 0, and otherwise
      evaluates every polynomial at x. */
  method GetKey(params: Params, coeffs: seq<seq<Elem>>, x: Elem) returns (r: Result<Key>)
    requires Shaped(params, coeffs)
    ensures r.Fail? <==> ParamsInvalid(params) || x == Zero
    ensures r.Ok? ==> r.value == KeyFor(coeffs, x)
    ensures r.Ok? ==> KeySize(params) == Ok(|KeyBytes(r.value)|)
  {
    if ParamsInvalid(params) || x == Zero {
      return Fail(InvalidArgument);
    }
    var ys: seq<Elem> := [];
    var j := 0;
    while j < params.size
      invariant 0 <= j <= params.size && |ys| == j
      invariant forall m :: 0 <= m < j ==> ys[m] == Eval(PolyOf(coeffs, m), x)
    {
      var y := Horner(coeffs[j], x);
      ys := ys + [y];
      j := j + 1;
    }
    KeyIsKeyFor(params, coeffs, x, Key(x, ys));
    return Ok(Key(x, ys));
  }

  /** The point of key i, the byte `i + 1` (src/shamir.c:150-153), counted
      up one byte at a time. */
  function PointOf(i: nat): Elem
    requires i < MaxKeys
  {
    if i == 0 then One else Elem(PointOf(i - 1).byte + 1)
  }

  /** The point of key i has the value i + 1: the byte addition never wraps
      because there are at most MAX_KEYS keys. */
  lemma {:induction false} PointValue(i: nat)
    requires i < MaxKeys
    ensures ByteValue(PointOf(i).byte) == i + 1
  {
    if i > 0 {
      PointValue(i - 1);
      ByteSucc(PointOf(i - 1).byte);
    }
  }

  lemma PointNonzero(i: nat)
    requires i < MaxKeys
    ensures PointOf(i) != Zero
  {
    PointValue(i);
  }

  /** The points of the first t keys. */
  function Points(keys: seq<Key>, t: nat): (xs: seq<Elem>)
    requires t <= |keys|
    ensures |xs| == t
  {
    seq(t, i requires 0 <= i < t => keys[i].x)
  }

  /** Byte j of each of the first t keys. */
  function Column(keys: seq<Key>, t: nat, j: nat): (ys: seq<Elem>)
    requires t <= |keys| && forall i :: 0 <= i < t ==> j < |keys[i].ys|
    ensures |ys| == t
  {
    seq(t, i requires 0 <= i < t => keys[i].ys[j])
  }

  /** The points i + 1 are nonzero and pairwise distinct. */
  lemma PointsGood(keys: seq<Key>)
    requires |keys| <= MaxKeys
    requires forall i :: 0 <= i < |keys| ==> keys[i].x == PointOf(i)
    ensures GoodPoints(Points(keys, |keys|))
  {
    var xs := Points(keys, |keys|);
    forall i, j | 0 <= i < j < |xs|
      ensures xs[i] != xs[j]
    {
      PointValue(i);
      PointValue(j);
    }
    forall i | 0 <= i < |xs|
      ensures xs[i] != Zero
    {
      PointNonzero(i);
    }
  }

  /** The loop of `shamir_get_keys` (src/shamir.c:150-154): key i is taken
      at the point i + 1. */
  method KeysAt(params: Params, coeffs: seq<seq<Elem>>, n: nat) returns (keys: seq<Key>)
    requires Shaped(params, coeffs) && !ParamsInvalid(params) && n <= MaxKeys
    ensures |keys| == n
    ensures forall i :: 0 <= i < n ==> keys[i] == KeyFor(coeffs, PointOf(i))
  {
    keys := [];
    var i := 0;
    while i < n
      invariant 0 <= i <= n && |keys| == i
      invariant forall m :: 0 <= m < i ==> keys[m] == KeyFor(coeffs, PointOf(m))
    {
      var x := PointOf(i);
      PointNonzero(i);
      var k := GetKey(params, coeffs, x);
      // GetKey fails only on what was checked before the loop, so the C
      // code's `if (ret == -1) return -1;` is never taken.
      assert k.Ok?;
      keys := keys + [k.value];
      i := i + 1;
    }
  }

  /** `shamir_get_keys`: rejects invalid parameters and key counts outside
      [2, MAX_KEYS]; otherwise key i is the key for point i + 1. */
  method GetKeys(params: Params, coeffs: seq<seq<Elem>>, n: nat) returns (r: Result<seq<Key>>)
    requires Shaped(params, coeffs)
    ensures r.Fail? <==> ParamsInvalid(params) || n < 2 || n > MaxKeys
    ensures r.Ok? ==> |r.value| == n && GoodPoints(Points(r.value, n))
    ensures r.Ok? ==> forall i :: 0 <= i < n ==> r.value[i] == KeyFor(coeffs, PointOf(i))
  {
    if ParamsInvalid(params) || n < 2 || n > MaxKeys {
      return Fail(InvalidArgument);
    }
    var keys := KeysAt(params, coeffs, n);
    PointsGood(keys);
    return Ok(keys);
  }

  // ---------------------------------------------------------------------------
  // Recovery (src/shamir.c:159-185).

  /** The secret the C code recovers from the first `threshold` keys: byte
      j is the log-domain Lagrange sum over their points and their j-th
      values. */
  function Recovered(params: Params, keys: seq<Key>): (s: seq<Elem>)
    requires params.threshold <= |keys|
    requires forall i :: 0 <= i < params.threshold ==> |keys[i].ys| == params.size
    ensures |s| == params.size
  {
    var t := params.threshold;
    seq(params.size, j requires 0 <= j < params.size =>
      RecoverSum(Points(keys, t), Column(keys, t, j), t))
  }

  /** The innermost loop of `shamir_recover_secret` (src/shamir.c:167-173):
      the sums of logarithms of the numerator and the denominator of the
      weight of key i, with `log_n` started at 0. */
  method LogSums(xs: seq<Elem>, i: nat) returns (logN: nat, logD: nat)
    requires i < |xs|
    ensures logN == LogNum(xs, i, |xs|) && logD == LogDen(xs, i, |xs|)
  {
    logN, logD := 0, 0;
    var k := 0;
    while k < |xs|
      invariant 0 <= k <= |xs|
      invariant logN == LogNum(xs, i, k) && logD == LogDen(xs, i, k)
    {
      if k != i {
        logN := logN + Log(xs[k]);
        logD := logD + Log(Add(xs[i], xs[k]));
      }
      k := k + 1;
    }
  }

  /** One secret byte (src/shamir.c:164-183): for every key i the term
      `exp[log y + log_l]`, skipped when y is zero. Over nonzero distinct
      points it is the Lagrange sum at zero. */
  method RecoverByte(xs: seq<Elem>, ys: seq<Elem>) returns (b: Elem)
    requires |xs| == |ys|
    ensures b == RecoverSum(xs, ys, |xs|)
    ensures GoodPoints(xs) ==> b == LagrangeSum(xs, ys, Zero, |xs|)
  {
    b := Zero;
    var i := 0;
    while i < |xs|
      invariant 0 <= i <= |xs|
      invariant b == RecoverSum(xs, ys, i)
    {
      var logN, logD := LogSums(xs, i);
      var logL := (logN % 255 + 255) - logD % 255;
      var y := ys[i];
      if y != Zero {
        b := Add(b, Exp(Log(y) + logL));
      } else {
        AddUnits(b);
      }
      i := i + 1;
    }
    if GoodPoints(xs) {
      RecoverSumIsLagrange(xs, ys, |xs|);
    }
  }

  /** `shamir_recover_secret`: rejects invalid parameters; otherwise
      recovers every byte from the first `threshold` keys. The C function
      ends without a `return` statement; the model returns success. */
  method RecoverSecret(params: Params, keys: seq<Key>) returns (r: Result<seq<Elem>>)
    requires !ParamsInvalid(params) ==> params.threshold <= |keys|
    requires !ParamsInvalid(params) ==> forall i :: 0 <= i < params.threshold ==> |keys[i].ys| == params.size
    ensures r.Fail? <==> ParamsInvalid(params)
    ensures r.Ok? ==> r.value == Recovered(params, keys)
    ensures r.Ok? && GoodPoints(Points(keys, params.threshold)) ==>
      forall j :: 0 <= j < params.size ==>
        r.value[j] == LagrangeSum(Points(keys, params.threshold), Column(keys, params.threshold, j), Zero, params.threshold)
  {
    if ParamsInvalid(params) {
      return Fail(InvalidArgument);
    }
    var t := params.threshold;
    var xs := Points(keys, t);
    var secret: seq<Elem> := [];
    var j := 0;
    while j < params.size
      invariant 0 <= j <= params.size && |secret| == j
      invariant forall m :: 0 <= m < j ==> secret[m] == RecoverSum(xs, Column(keys, t, m), t)
      invariant GoodPoints(xs) ==>
        forall m :: 0 <= m < j ==> secret[m] == LagrangeSum(xs, Column(keys, t, m), Zero, t)
    {
      var b := RecoverByte(xs, Column(keys, t, j));
      secret := secret + [b];
      j := j + 1;
    }
    return Ok(secret);
  }

  /** Every key is the key for its own point. */
  predicate KeysOf(coeffs: seq<seq<Elem>>, keys: seq<Key>) {
    forall i :: 0 <= i < |keys| ==> keys[i] == KeyFor(coeffs, keys[i].x)
  }

  /** The sharing is correct: given keys of the polynomials that
      `shamir_init_poly` builds, of which the first `threshold` (the ones
      `shamir_recover_secret` reads) have nonzero, pairwise distinct points,
      recovery gives back the secret. */
  lemma RecoverShares(params: Params, secret: seq<Elem>, random: seq<Elem>, coeffs: seq<seq<Elem>>, keys: seq<Key>)
    requires |secret| == params.size && |random| == params.size * params.threshold
    requires InitPoly(params, secret, random) == Ok(coeffs)
    requires |keys| >= params.threshold
    requires GoodPoints(Points(keys, params.threshold)) && KeysOf(coeffs, keys[..params.threshold])
    ensures forall i :: 0 <= i < params.threshold ==> |keys[i].ys| == params.size
    ensures Recovered(params, keys) == secret
  {
    var t := params.threshold;
    var xs := Points(keys, t);
    forall i | 0 <= i < t
      ensures keys[i] == KeyFor(coeffs, keys[i].x)
    {
      assert keys[..t][i] == keys[i];
    }
    forall j | 0 <= j < params.size
      ensures Recovered(params, keys)[j] == secret[j]
    {
      var p := PolyOf(coeffs, j);
      forall i | 0 <= i < t
        ensures Column(keys, t, j)[i] == Values(p, xs)[i]
      {
        assert keys[i] == KeyFor(coeffs, keys[i].x);
      }
      assert Column(keys, t, j) == Values(p, xs);
      RecoverValueAtZero(p, xs);
      EvalAtZero(p);
    }
  }

  // ---------------------------------------------------------------------------
  // The uninitialised `log_n` of src/shamir.c:167.

  /** `log_n` as written: the declaration `unsigned log_n, log_d = 0;`
      initialises only `log_d`, so `log_n` starts from whatever value g the
      variable holds, and the unsigned sum wraps modulo 2^32. */
  function LogNumAsWritten(g: nat, xs: seq<Elem>, i: nat): nat
    requires g < 0x1_0000_0000
  {
    (g + LogNum(xs, i, |xs|)) % 0x1_0000_0000
  }

  /** The term of key i as written, with log_n started from g. */
  function RecoverTermAsWritten(g: nat, xs: seq<Elem>, ys: seq<Elem>, i: nat): Elem
    requires g < 0x1_0000_0000 && i < |xs| == |ys|
  {
    if ys[i] == Zero then Zero
    else Exp(Log(ys[i]) + LogLagrange(LogNumAsWritten(g, xs, i), LogDen(xs, i, |xs|)))
  }

  lemma ExpResidue(a: nat, b: nat)
    requires Exp(a) == Exp(b)
    ensures a % 255 == b % 255
  {
    ExpInjective(a % 255, b % 255);
  }

  lemma ModAddCancel(c: nat, u: nat, v: nat)
    requires (c + u) % 255 == (c + v) % 255
    ensures u % 255 == v % 255
  {
    var q, w := (c + u) / 255, (c + v) / 255;
    assert c + u == 255 * q + (c + u) % 255;
    assert c + v == 255 * w + (c + v) % 255;
    assert u - v == 255 * (q - w);
  }

  lemma ModAddCongruent(u: nat, v: nat, d: nat)
    requires u % 255 == v % 255
    ensures (u + d) % 255 == (v + d) % 255
  {
    var q, w := u / 255, v / 255;
    assert u == 255 * q + u % 255;
    assert v == 255 * w + v % 255;
    assert u + d == 255 * (q - w) + (v + d);
  }

  lemma ModShift(g: nat, n: nat)
    requires (g + n) % 255 == n % 255
    ensures g % 255 == 0
  {
    var q, w := (g + n) / 255, n / 255;
    assert g + n == 255 * q + (g + n) % 255;
    assert n == 255 * w + n % 255;
    assert g == 255 * (q - w);
  }

  /** With log_n started from g, a nonzero term is correct exactly when the
      wrapped sum `log_n` is congruent modulo 255 to the sum started from 0.
      (Since 2^32 is 1 modulo 255, a wrapped sum is correct for g congruent
      to 1.) */
  lemma LogNumAsWrittenTerm(g: nat, xs: seq<Elem>, ys: seq<Elem>, i: nat)
    requires i < |xs| == |ys| && ys[i] != Zero && g < 0x1_0000_0000
    ensures RecoverTermAsWritten(g, xs, ys, i) == RecoverTerm(xs, ys, i)
            <==> LogNumAsWritten(g, xs, i) % 255 == LogNum(xs, i, |xs|) % 255
  {
    var ly := Log(ys[i]);
    var ln := LogNum(xs, i, |xs|);
    var ld := LogDen(xs, i, |xs|);
    var a := LogLagrange(LogNumAsWritten(g, xs, i), ld);
    var b := LogLagrange(ln, ld);
    if Exp(ly + a) == Exp(ly + b) {
      ExpResidue(ly + a, ly + b);
      ModAddCancel(ly, a, b);
      ModAddCongruent(a, b, ld % 255);
    }
  }

  /** While the sum does not wrap, a nonzero term is correct exactly when g
      is a multiple of 255: any other leftover value makes every nonzero
      term wrong. */
  lemma UninitialisedLogNumCorrupts(g: nat, xs: seq<Elem>, ys: seq<Elem>, i: nat)
    requires i < |xs| == |ys| && ys[i] != Zero
    requires g + LogNum(xs, i, |xs|) < 0x1_0000_0000
    ensures RecoverTermAsWritten(g, xs, ys, i) == RecoverTerm(xs, ys, i) <==> g % 255 == 0
  {
    var ln := LogNum(xs, i, |xs|);
    LogNumAsWrittenTerm(g, xs, ys, i);
    assert LogNumAsWritten(g, xs, i) == g + ln;
    if (g + ln) % 255 == ln % 255 {
      ModShift(g, ln);
    }
    if g % 255 == 0 {
      ModAddCongruent(g, 0, ln);
    }
  }

  // ---------------------------------------------------------------------------
  // The key buffer layout (src/shamir.c:61, tests/test_shamir.c:19).

  /** Writes `bytes` into `buf` from offset o, as `memcpy` or a run of
      single-byte stores does. Bytes that would land past the end of the
      buffer are dropped: the model keeps only what the buffer can hold. */
  function Write(buf: seq<Elem>, o: nat, bytes: seq<Elem>): (r: seq<Elem>)
    ensures |r| == |buf|
  {
    seq(|buf|, k requires 0 <= k < |buf| => if o <= k < o + |bytes| then bytes[k - o] else buf[k])
  }

  /** The buffer after keys 0 … n-1 have been written in order, key i from
      offset i·stride. */
  function StoreKeys(keys: seq<Key>, stride: nat, buf: seq<Elem>, n: nat): (r: seq<Elem>)
    requires n <= |keys|
    ensures |r| == |buf|
  {
    if n == 0 then buf
    else Write(StoreKeys(keys, stride, buf, n - 1), (n - 1) * stride, KeyBytes(keys[n - 1]))
  }

  /** The key of `size` values stored from offset o. */
  function LoadKey(buf: seq<Elem>, o: nat, size: nat): Key
    requires o + size + 1 <= |buf|
  {
    Key(buf[o], buf[o + 1..o + 1 + size])
  }

  /** The stride of `_k` as written: `threshold` bytes. */
  function KeyStrideAsWritten(params: Params): nat {
    params.threshold
  }

  /** The stride evidently intended: the key size, `size + 1`, which
      `shamir_key_size` returns and `copy_idxs` uses. */
  function KeyStride(params: Params): nat {
    params.size + 1
  }

  lemma StrideMonotone(i: nat, j: nat, s: nat)
    requires i < j
    ensures i * s + s <= j * s
  {
    assert (j - i) * s >= s by {
      assert j - i >= 1;
    }
    assert j * s == i * s + (j - i) * s;
  }

  /** With a stride equal to the key length, byte d of the slot of key i
      holds byte d of key i once all n keys are written. */
  lemma {:induction false} StoredByte(keys: seq<Key>, s: nat, buf: seq<Elem>, n: nat, i: nat, d: nat)
    requires i < n <= |keys| && d < s && i * s + d < |buf|
    requires forall m :: 0 <= m < n ==> |KeyBytes(keys[m])| == s
    ensures StoreKeys(keys, s, buf, n)[i * s + d] == KeyBytes(keys[i])[d]
    decreases n
  {
    var prev := StoreKeys(keys, s, buf, n - 1);
    var o := (n - 1) * s;
    var p := i * s + d;
    assert StoreKeys(keys, s, buf, n) == Write(prev, o, KeyBytes(keys[n - 1]));
    if i < n - 1 {
      StrideMonotone(i, n - 1, s);
      assert p < o;
      StoredByte(keys, s, buf, n - 1, i, d);
    } else {
      assert p == o + d;
    }
  }

  /** A key of `size` values whose bytes sit from offset o reads back. */
  lemma LoadFromSlot(r: seq<Elem>, o: nat, k: Key, size: nat)
    requires |k.ys| == size && o + size + 1 <= |r|
    requires forall d :: 0 <= d < size + 1 ==> r[o + d] == KeyBytes(k)[d]
    ensures LoadKey(r, o, size) == k
  {
    assert r[o] == KeyBytes(k)[0];
    forall d | 0 <= d < size
      ensures r[o + 1..o + 1 + size][d] == k.ys[d]
    {
      assert r[o + (d + 1)] == KeyBytes(k)[d + 1];
    }
  }

  /** With the intended stride every key reads back as written. */
  lemma KeyStoreRoundTrip(params: Params, keys: seq<Key>, buf: seq<Elem>, n: nat, i: nat)
    requires i < n <= |keys|
    requires forall m :: 0 <= m < n ==> |keys[m].ys| == params.size
    requires n * KeyStride(params) <= |buf|
    ensures i * KeyStride(params) + params.size + 1 <= |buf|
    ensures LoadKey(StoreKeys(keys, KeyStride(params), buf, n), i * KeyStride(params), params.size) == keys[i]
  {
    var s := KeyStride(params);
    StrideMonotone(i, n, s);
    var r := StoreKeys(keys, s, buf, n);
    forall d | 0 <= d < s
      ensures r[i * s + d] == KeyBytes(keys[i])[d]
    {
      StoredByte(keys, s, buf, n, i, d);
    }
    LoadFromSlot(r, i * s, keys[i], params.size);
  }

  /** Once keys 0 … n-1 are written with the stride `threshold`, byte
      `threshold` of the buffer holds the point of key 1: key 1 is written
      after key 0 and no later key reaches back that far. */
  lemma {:induction false} SecondPointAtThreshold(keys: seq<Key>, t: nat, buf: seq<Elem>, n: nat)
    requires 2 <= n <= |keys| && 1 <= t < |buf|
    ensures StoreKeys(keys, t, buf, n)[t] == keys[1].x
    decreases n
  {
    if n > 2 {
      SecondPointAtThreshold(keys, t, buf, n - 1);
      StrideMonotone(1, n - 1, t);
    }
  }

  /** The defect of src/shamir.c:61. When `threshold` is at most `size`, the
      stride is shorter than a key and key 1 is written over the end of key
      0: read back, value `threshold - 1` of key 0 is the point of key 1, so
      key 0 is lost whenever the two differ. */
  lemma KeyStrideAsWrittenOverlaps(params: Params, keys: seq<Key>, buf: seq<Elem>, n: nat)
    requires !ParamsInvalid(params) && params.threshold <= params.size
    requires 2 <= n <= |keys| && n * KeyStride(params) <= |buf|
    requires |keys[0].ys| == params.size
    ensures params.size + 1 <= |buf|
    ensures LoadKey(StoreKeys(keys, KeyStrideAsWritten(params), buf, n), 0, params.size).ys[params.threshold - 1] == keys[1].x
    ensures keys[0].ys[params.threshold - 1] != keys[1].x ==>
      LoadKey(StoreKeys(keys, KeyStrideAsWritten(params), buf, n), 0, params.size) != keys[0]
  {
    var t := params.threshold;
    StrideMonotone(1, n, KeyStride(params));
    SecondPointAtThreshold(keys, t, buf, n);
  }

  /** With `threshold` above the key size the stride runs past the n keys
      the caller allocated (`n * key_size` bytes): the slot that
      `_shamir_get_key` fills for the last key ends beyond the buffer, while
      with the key-size stride it ends exactly at the buffer's end. */
  lemma KeyStrideAsWrittenOverruns(params: Params, keys: seq<Key>, buf: seq<Elem>, n: nat)
    requires 2 <= n <= |keys| && |keys[n - 1].ys| == params.size
    requires |buf| == n * KeyStride(params)
    requires KeyStrideAsWritten(params) > KeyStride(params)
    ensures (n - 1) * KeyStrideAsWritten(params) + |KeyBytes(keys[n - 1])| > |buf|
    ensures (n - 1) * KeyStride(params) + |KeyBytes(keys[n - 1])| == |buf|
  {
    var t := KeyStrideAsWritten(params);
    var s := KeyStride(params);
    assert |KeyBytes(keys[n - 1])| == s;
    assert (n - 1) * t >= (n - 1) * (s + 1) by {
      assert t >= s + 1;
    }
    assert (n - 1) * (s + 1) == (n - 1) * s + (n - 1);
    assert n * s == (n - 1) * s + s;
  }
}
